=== FILE: README.md ===
# python-mtga-helper core, modelled in Dafny

This project models the pure logic of python-mtga-helper. The tool follows
the MTG Arena client's `Player.log` and reacts to the events the client
writes there. It grades cards from 17lands statistics with a letter scale.
Three pieces are modelled, plus the older single-file revision
`follow_log.py`:

- **The letter-grade scale** (`Grading`, grading.py). There are thirteen
  grades A+ … F with integer lower bounds. `score_to_grade` is a first-match
  scan over that table. `score_to_grade_string` gives the grade text, or
  nothing for a missing or zero score. The sample filter of
  `get_normal_distribution` is here too.
- **Ranking enrichment** (`SeventeenLands`, seventeen_lands.py).
  - Provider records are keyed by `mtga_id`, and the last record with an id wins.
  - Colourless lands get their colour from the last type token.
  - `ever_drawn_score` is set exactly when the ever-drawn win rate is truthy.
  - `has_card_type`, `count_creatures` and the key histogram are modelled as well.
- **The log-line demultiplexer** (`PlayerLog`, mtga_log.py).
  - `follow_player_log` is a fold over a finite sequence of stripped lines.
  - Its state is "" when idle, or the name of the event whose payload comes on the next line.
  - It records a trace of what it logs and of which handler receives which payload.
  - A run ends with the exception the source lets escape.
  - The regexes `<== (\w+)\(([a-f0-9-]+)\)` and `\[UnityCrossThreadLogger\]==> (\w+) (.*)` are implemented directly. They are proved equal to a declarative reading of the pattern, in which `.` matches any character but a line break, as in Python. `get_sealed_courses` lives here too.
- **The older revision** (`FollowLog`, follow_log.py). It holds:
  - its own grade table and `get_grade_for_score`;
  - the pool count of `print_sealed_course_info`;
  - the whole-log scan `get_latest_event_courses`;
  - the attribute-based `get_sealed_courses`;
  - the four-`if` key histogram;
  - the grading loop that sets a score and a grade together.

Supporting modules:

- `Wrappers` holds `Option` and `Result`.
- `Text` models the Python `str` operations the parsers use: `startswith`,
  `in`, `count`, `split`, `strip` and `replace(old, "")`.
- `JsonValues` holds a JSON value type.
- `Cards` models the provider record, with an `Option` for every metric. It
  also defines Python truthiness of an optional number: present and non-zero.

Some inputs are parameters rather than code:

- JSON decoding is `parse: string -> Option<Json>`. `None` stands for a
  `JSONDecodeError`.
- The fitted normal distribution is `cdf(samples, x)`: the cumulative
  probability of `x` under the normal distribution fitted to `samples`.
- `land_string_to_colors` is `landColors: string -> string`.
- The handler tables are the sets of event names registered in each.

`LatestEventCourses` is `LatestCourses` given the source's marker test
(`"<== EventGetCoursesV2" in line`) and id extraction (`CourseId`). The
lemmas about `LatestCourses` hold for any marker test and id extraction,
so they hold for `get_latest_event_courses` itself.

Three behaviours of the parser:

- A payload line that does not decode is still dispatched, as the raw line
  (mtga_log.py:79-85).
- Some malformed lines do raise. Bad start-line JSON raises
  (mtga_log.py:114-115). So does a "DETAILED LOGS" line without ':'
  (mtga_log.py:94).
- A response line whose correlation id holds a character outside
  `[a-f0-9-]`, such as "x1", and holds neither '<' nor ')', does not match
  the response pattern. It leaves the parser idle
  (`PlayerLog.NonHexIdStaysIdle`). An id holding ')' can still match, on
  the part before that ')'.

## Model

| member | source | states |
|---|---|---|
| `Grading.GradeTableShape` | mtga_helper/grading.py:28-42 | the table lists 13 grades best to worst with strictly descending bounds, and F's bound is 0 |
| `Grading.GradesDistinct` | mtga_helper/grading.py:13-26 | different grades have different ranks and different, non-empty texts |
| `Grading.ThresholdsDescend` | mtga_helper/grading.py:28-42 | one grade is better than another exactly when its bound is higher |
| `Grading.FirstAtOrBelow` | mtga_helper/grading.py:52-54 | the scan stops at the first row whose bound is at most the score; every row before it is above the score |
| `Grading.ScoreToGrade` | mtga_helper/grading.py:51-55 | a non-negative score reaches its grade's bound; every better grade's bound is above the score (tightness); negative scores get F |
| `Grading.ThresholdEarnsGrade` | mtga_helper/grading.py:53 | bounds are inclusive: scoring exactly a grade's bound earns that grade |
| `Grading.ScoreToGradeMonotonic` | mtga_helper/grading.py:51-55 | a higher score never earns a worse grade |
| `Grading.LowScoresFail` | mtga_helper/grading.py:51-55 | every score below 5, negative ones included, earns F |
| `Grading.ScoreToGradeText` | mtga_helper/grading.py:57-62 | the text is empty exactly for a missing or zero score; otherwise it is the text of the score's grade |
| `Grading.Samples` | mtga_helper/grading.py:64-69 | one sample per record with a truthy value of the metric; no sample is zero |
| `Grading.SamplesConcat` | mtga_helper/grading.py:67-69 | samples keep record order: the samples of a concatenation are the parts' samples in sequence |
| `Grading.SamplesMembership` | mtga_helper/grading.py:67-69 | a value is sampled exactly when some record carries it as a truthy metric |
| `Cards.CountTruthy` | mtga_helper/seventeen_lands.py:127-130 | the number of records with a truthy metric is at most the batch size, and 0 when no record has one |
| `SeventeenLands.TypeLineContains` | mtga_helper/seventeen_lands.py:71-74 | true exactly when some type token contains the name as a substring |
| `SeventeenLands.HasCardType` | mtga_helper/seventeen_lands.py:70-74 | true exactly when some type token contains the name; false for an empty type line |
| `SeventeenLands.CountCreatures` | mtga_helper/seventeen_lands.py:76-86 | the two counts add up to the number of records, and the first is the number of records that are creatures |
| `SeventeenLands.ByArenaId` | mtga_helper/seventeen_lands.py:51-52 | the keys are exactly the ids in the batch, each storing a record with that id |
| `SeventeenLands.ByArenaIdLastWins` | mtga_helper/seventeen_lands.py:51-52 | a record with no later record of the same id is the one stored under its id |
| `SeventeenLands.OverwriteColors` | mtga_helper/seventeen_lands.py:62-63 | the colour ends as the land colours of the last type token, or is unchanged for an empty type line |
| `SeventeenLands.EnrichCard` | mtga_helper/seventeen_lands.py:59-66 | only the colour can change, and only for a colourless land; the score is present exactly when the ever-drawn win rate is truthy, and is then cdf × 100 |
| `SeventeenLands.GradedRankings` | mtga_helper/seventeen_lands.py:43-68 | one ranking per distinct id, each the enrichment of the id's last record against the whole batch's samples |
| `SeventeenLands.NoRatesNoScores` | mtga_helper/seventeen_lands.py:57-66 | a batch with no truthy ever-drawn win rate samples nothing and scores no card |
| `SeventeenLands.MetricKeysDistinct` | mtga_helper/seventeen_lands.py:116-121 | the four tracked keys are distinct, none is "all", and together with "all" they are the histogram's keys |
| `SeventeenLands.EmptyHistogram` | mtga_helper/seventeen_lands.py:123-125 | the histogram starts with every tracked key at 0 |
| `SeventeenLands.TallyCard` | mtga_helper/seventeen_lands.py:128-130 | one record adds one to exactly the keys whose value it carries truthily |
| `SeventeenLands.TallyCards` | mtga_helper/seventeen_lands.py:127-130 | each tracked key counts the records with that value truthy |
| `SeventeenLands.KeyHistogram` | mtga_helper/seventeen_lands.py:115-132 | the keys are the four metrics and "all"; "all" is the batch size and bounds every per-key count |
| `Text.Split` | mtga_helper/mtga_log.py:91 | the pieces number one more than the separators, hold no separator, and joined back give the line |
| `Text.SplitJoin` | mtga_helper/mtga_log.py:91 | splitting the join of separator-free pieces gives the pieces back |
| `Text.Strip` | mtga_helper/mtga_log.py:91 | the result is the slice of the input between a whitespace-only prefix and a whitespace-only suffix; it neither starts nor ends with whitespace; a string without surrounding whitespace is unchanged |
| `Text.RemoveAll` | follow_log.py:139-140 | the result is never longer than the input, and removing a one-character pattern leaves no such character |
| `PlayerLog.SpanEnd` | mtga_helper/mtga_log.py:103 | the longest run of class characters from a position, followed by a character outside the class |
| `PlayerLog.MatchResponseAt` | mtga_helper/mtga_log.py:103 | a match captures a non-empty `\w` word |
| `PlayerLog.MatchResponseAtIsRegex` | mtga_helper/mtga_log.py:103 | the matcher returns a name exactly when the response pattern matches there with that name as group 1 |
| `PlayerLog.SearchResponse` | mtga_helper/mtga_log.py:103-105 | the leftmost match's name: the pattern matches with that name at some position, and at no earlier one; no result exactly when the pattern matches nowhere |
| `PlayerLog.MatchRequestAt` | mtga_helper/mtga_log.py:110 | a match captures a non-empty `\w` event name |
| `PlayerLog.MatchRequestAtIsRegex` | mtga_helper/mtga_log.py:110 | the matcher returns a name and a rest exactly when the start-line pattern matches there with them as groups 1 and 2, the rest running up to the first line break or the end |
| `PlayerLog.SearchRequest` | mtga_helper/mtga_log.py:110-113 | the leftmost match's groups: the pattern matches with them at some position, and at no earlier one; no result exactly when the pattern matches nowhere |
| `PlayerLog.SealedCourses` | mtga_helper/mtga_log.py:66-71 | keeps exactly the courses whose event name starts with "Sealed" and whose card pool is non-empty |
| `PlayerLog.SealedCoursesConcat` | mtga_helper/mtga_log.py:66-71 | the filter preserves order: filtering a concatenation concatenates the filtered parts |
| `PlayerLog.DecodePayload` | mtga_helper/mtga_log.py:79-84 | the handler gets the decoded document when the line decodes, and the raw line otherwise |
| `PlayerLog.StartLine` | mtga_helper/mtga_log.py:113-119 | succeeds exactly when the outer JSON, its "request" string and that string's JSON all decode; then it calls the start handler exactly when the name is registered |
| `PlayerLog.Classify` | mtga_helper/mtga_log.py:90-109 | a line is an "other" line exactly when it fails all four tests: the version test, "DETAILED LOGS", the "<==" prefix and the start-line prefix |
| `PlayerLog.RequestStep` | mtga_helper/mtga_log.py:109-119 | a start line never leaves the parser pending; without a match it does nothing; with one it fails exactly when the start-line decoding of the matched name and JSON fails, and otherwise emits what that decoding emits |
| `PlayerLog.IdleLine` | mtga_helper/mtga_log.py:90-119 | only a status line or a start line can raise; a name becomes pending only on a response line, and it is the name the response pattern finds there |
| `PlayerLog.Step` | mtga_helper/mtga_log.py:77-119 | a step with an event pending never raises; a name becomes pending only from idle, on a response line, and it is a non-empty word |
| `PlayerLog.Run` | mtga_helper/mtga_log.py:73-119 | the state is always idle or a non-empty word, so a pending name is never the idle value, and a name is pending only right after a response line |
| `PlayerLog.PendingLineIsPayload` | mtga_helper/mtga_log.py:77-88 | while pending, the next line is consumed as payload whatever it says; the step cannot fail, returns to idle, and calls the end handler once if registered, never otherwise |
| `PlayerLog.IdleStep` | mtga_helper/mtga_log.py:90-119 | an idle parser becomes pending exactly on a response line the regex matches, and then holds the matched non-empty name; a response line never fails and never emits anything, matched or not |
| `PlayerLog.OtherLineIgnored` | mtga_helper/mtga_log.py:90-119 | a line passing none of the four tests changes nothing |
| `PlayerLog.ClassificationPriority` | mtga_helper/mtga_log.py:90-109 | a line is of a kind exactly when it passes that kind's test and fails every earlier test, in source order; no line other than a response line makes the parser pending |
| `PlayerLog.StartLineKeepsIdle` | mtga_helper/mtga_log.py:109-119 | a start line keeps the parser idle; when it decodes, the start handler under the matched group-1 name is called once, with the decoded "request" string of the matched group-2 JSON, and nothing is called for an unregistered name |
| `PlayerLog.StartLineErrorsEscape` | mtga_helper/mtga_log.py:114-115 | malformed outer JSON, a missing "request", or malformed inner JSON ends the loop with that error |
| `PlayerLog.DetailedLogsNeedsColon` | mtga_helper/mtga_log.py:93-99 | a status line reports the stripped text between its first ':' and the next ':' or the end of the line, and without a ':' it ends the loop |
| `PlayerLog.VersionIsMiddleSegment` | mtga_helper/mtga_log.py:90-92 | a version line with two '/' reports its middle segment, stripped |
| `PlayerLog.RunDispatchesRegistered` | mtga_helper/mtga_log.py:77-119 | handlers are only called under names registered in their table |
| `PlayerLog.RunFailureIsFinal` | mtga_helper/mtga_log.py:76-119 | after an exception escapes, no later line changes the outcome |
| `PlayerLog.ResponseLineMatches` | mtga_helper/mtga_log.py:102-105 | the response pattern recovers the event name from a line with a `[a-f0-9-]` id |
| `PlayerLog.ResponseLineClassified` | mtga_helper/mtga_log.py:90-102 | such a line reaches the response branch |
| `PlayerLog.ResponseLineRecoversName` | mtga_helper/mtga_log.py:102-105 | such a line is classified as a response and yields its name |
| `PlayerLog.ResponseThenPayload` | mtga_helper/mtga_log.py:77-105 | a response line followed by any line calls the registered end handler exactly once, with that line's payload, and ends idle |
| `PlayerLog.NonHexIdStaysIdle` | mtga_helper/mtga_log.py:102-106 | an id holding a character outside `[a-f0-9-]`, and holding neither '<' nor ')', defeats the pattern and the parser stays idle |
| `FollowLog.GetGradeForScore` | follow_log.py:39-59 | this revision's table and scan grade every score as `score_to_grade` does |
| `FollowLog.BumpCounts` | follow_log.py:67-71 | counting one more pool entry keeps the key set, the multiplicities and the sum exact |
| `FollowLog.CountCopies` | follow_log.py:66-71 | the keys are the distinct pool ids, each with its multiplicity, and the counts sum to the pool size |
| `FollowLog.PoolIdCounts` | follow_log.py:61-71 | fails exactly on an empty pool; otherwise gives the distinct ids, each with its positive multiplicity, summing to the pool size |
| `FollowLog.CourseId` | follow_log.py:139-140 | the extracted id holds no ')' and is no longer than the line |
| `FollowLog.CourseIdOfMarkerLine` | follow_log.py:139-140 | on the client's marker line the extracted id is exactly the id between the parentheses |
| `FollowLog.CourseIdOfTerminatedMarkerLine` | follow_log.py:130-140 | the same on the marker line as `readlines` returns it, ending in its line break |
| `FollowLog.ScanCourses` | follow_log.py:129-146 | the scan only ever adds ids; a latest id it changed is one it stored; it never fails with the final lookup's error |
| `FollowLog.LatestCourses` | follow_log.py:128-151 | a result is a value with a length; the final lookup fails only after a full scan that left the latest id at the initial "" with nothing stored under it |
| `FollowLog.LatestEventCourses` | follow_log.py:128-151 | a result is the "Courses" of the document on the line after the last line containing the marker; with no such line the lookup of "" fails |
| `FollowLog.LastMarkerBeforeIsLast` | follow_log.py:138 | the position found is a marker line with no marker after it; none found means no marker at all |
| `FollowLog.ScanStateSkip` | follow_log.py:138 | a line without the marker leaves the scan's variables unchanged |
| `FollowLog.ScanStateStore` | follow_log.py:138-146 | a marker stores the next line's document under its id and makes that id the latest |
| `FollowLog.ScanCoursesKeepsState` | follow_log.py:132-146 | at the end of a successful scan, the latest id belongs to the last marker, and its stored document is the one on the line after it |
| `FollowLog.LatestCoursesFollowLastMarker` | follow_log.py:128-151 | the result is the "Courses" of the document on the line after the last marker line; an earlier list never wins |
| `FollowLog.LatestCoursesErrors` | follow_log.py:141-151 | without a marker line the lookup of "" fails; with a marker on the last line the read past the end fails |
| `FollowLog.ScanCoursesSucceeds` | follow_log.py:132-146 | with every marker followed by a document with a sized "Courses", the scan never fails |
| `FollowLog.ScanCoursesNeedsWellFormed` | follow_log.py:138-144 | a scan that succeeds met only markers followed by a document with a sized "Courses": one bad document aborts the whole scan |
| `FollowLog.LatestCoursesSucceed` | follow_log.py:128-151 | a log yields a course list exactly when it has at least one marker and every marker is followed by a document with a sized "Courses" |
| `FollowLog.SealedCopies` | follow_log.py:208-210 | a course is appended once per sealed-format attribute, and nothing else is appended |
| `FollowLog.SealedCoursesByFormat` | follow_log.py:205-211 | only courses of the input come out |
| `FollowLog.SealedCoursesByFormatMembers` | follow_log.py:205-211 | a course is kept exactly when it is in the input and some attribute says "Format: Sealed" |
| `FollowLog.SealedCoursesByFormatSingle` | follow_log.py:207-210 | a single course comes out once per sealed-format attribute |
| `FollowLog.SealedCoursesByFormatConcat` | follow_log.py:205-211 | the filter preserves course order |
| `FollowLog.LegacyTallyCard` | follow_log.py:233-242 | the four tests add one to exactly the truthy metrics, and "all" grows by one |
| `FollowLog.LegacyKeyHistogram` | follow_log.py:225-242 | the same keys and counts as the later revision: "all" is the batch size and bounds every per-key count |
| `FollowLog.LegacyEnrichCard` | follow_log.py:260-270 | each score is set exactly when its win rate is truthy, its grade exactly when the score is, and the grade is the score's grade; the record is unchanged |
| `FollowLog.LegacyGradedRankings` | follow_log.py:250-272 | one graded record per distinct id, each the grading of the id's last record against the whole batch's win-rate and ever-drawn samples |
| `FollowLog.LegacyAgreesWithCurrent` | follow_log.py:245-272 | both revisions give every card the same ever-drawn score, and this revision's ever-drawn grade is that score's grade |

## Left out

- `follow` reads the log by polling, with sleeps, inode checks and reopening
  (mtga_log.py:21-38). This is file I/O and an infinite generator. The model
  runs over a finite sequence of lines that are already stripped.
- `get_log_path` in both revisions and `get_player_log_lines` only probe and
  read the filesystem.
- `query_17lands` and `pull_17lands` do HTTP and a disk cache, and take the
  end date from the wall clock. The records they return are an input.
- `NormalDistribution.cdf`, `np.mean` and `np.std(ddof=1)` are
  floating-point numerics from modules that are not shown. The model keeps
  only the samples they are given and passes the CDF in as a parameter.
  NaN is not modelled, for example the NaN numpy gives for fewer than two
  samples.
- Win rates, CDF values and scores are exact reals. The IEEE double
  rounding of `cdf(...) * 100` (seventeen_lands.py:66, follow_log.py:266
  and 269) is not modelled. A product that rounds up onto a grade bound
  therefore grades one step lower in the model than in the source; for
  example, a CDF value of 0.049999999999999996 gives the double 5.0 (D-)
  but the real 4.9999999999999996 (F).
- `grade_to_color`, `colored` and `tabulate` are rendering.
  `print_courses`, `print_rankings` and the printing parts of
  `print_sealed_course_info` are display code.
- The `logger` calls are not modelled, except for the version and detailed-log
  status values, which are recorded as observations. Their warnings about
  a "DISABLED" status are not modelled.
- `mtga_helper/__main__.py` is argparse and callback wiring. The handler
  tables are parameters, and the `args` value handed to handlers is not
  modelled. Handlers are not run, so an exception raised inside a handler
  is not modelled either.
- mtga_helper/limited.py and mtga_helper/mtg.py are not part of this model.
  `land_string_to_colors` is a parameter.
- Provider records are assumed to carry the four metric keys, with `null` as
  `None`. The `KeyError` that the older revision's histogram and grading loop
  raise on a missing key is not modelled.
- `Course` keeps only the fields the filters read. A missing
  "CourseDeckSummary", "Attributes", "InternalEventName" or "CardPool" (a
  `KeyError`) is not modelled.
- `PlayerLog.IsWordChar`: `\w` is ASCII letters, digits and `_`. Python's
  Unicode word characters beyond ASCII are not modelled.
- `Text.IsSpace` lists the characters Python's `str.isspace()` accepts, as
  code points. No normalisation is modelled.
- `Text.RemoveAll`: its contract bounds the length and, for a one-character
  pattern, says the character is gone. Its exact behaviour is used through
  the lemmas `RemoveAllAbsent`, `RemoveCharConcat` and
  `RemoveLeadingPattern`.
- Printing the number of courses in `get_latest_event_courses` is modelled
  only through the `len()` it needs: a "Courses" value without a length
  fails (`CoursesNotSized`).

=== FILE: cards.dfy ===
/** The statistics provider's per-card record, as the enrichment code reads
    it: an identifier, descriptive fields, and four nullable metrics. */
module Cards {
  import opened Wrappers

  /** The four nullable metrics a provider record carries. */
  datatype Metric = WinRate | EverDrawnWinRate | EverDrawnGameCount | DrawnWinRate {

    /** The record key the metric is stored under. */
    function Key(): string {
      match this
      case WinRate => "win_rate"
      case EverDrawnWinRate => "ever_drawn_win_rate"
      case EverDrawnGameCount => "ever_drawn_game_count"
      case DrawnWinRate => "drawn_win_rate"
    }
  }

  /** One provider record. `color` is the colour-identity text ("" for
      colourless); each metric is `None` where the provider sent null. */
  datatype Card = Card(
    mtgaId: int,
    name: string,
    rarity: string,
    color: string,
    types: seq<string>,
    winRate: Option<real>,
    everDrawnWinRate: Option<real>,
    everDrawnGameCount: Option<real>,
    drawnWinRate: Option<real>)
  {
    function Get(m: Metric): Option<real> {
      match m
      case WinRate => winRate
      case EverDrawnWinRate => everDrawnWinRate
      case EverDrawnGameCount => everDrawnGameCount
      case DrawnWinRate => drawnWinRate
    }
  }

  /** Python truthiness of a nullable number: neither None nor zero. */
  predicate Truthy(v: Option<real>) {
    v.Some? && v.value != 0.0
  }

  /** The number of records whose metric `m` is truthy. */
  function CountTruthy(cards: seq<Card>, m: Metric): (n: nat)
    ensures n <= |cards|
    ensures n == 0 <== forall i | 0 <= i < |cards| :: !Truthy(cards[i].Get(m))
  {
    if |cards| == 0 then 0
    else CountTruthy(cards[..|cards| - 1], m) + (if Truthy(cards[|cards| - 1].Get(m)) then 1 else 0)
  }

  /** Counting one more record of a batch adds one exactly when that
      record's value is truthy. */
  lemma CountTruthyExtend(cards: seq<Card>, i: nat)
    requires i < |cards|
    ensures forall m: Metric :: CountTruthy(cards[..i + 1], m)
              == CountTruthy(cards[..i], m) + (if Truthy(cards[i].Get(m)) then 1 else 0)
  {
    assert cards[..i + 1][..i] == cards[..i];
  }
}

=== FILE: follow_log.dfy ===
/** The older, single-file revision follow_log.py: its own copy of the
    grade table, pool counting, the whole-log scan for the latest course
    list, the attribute-based sealed filter, the key histogram and the
    grading loop that sets a score and a grade together. */
module FollowLog {
  import opened Wrappers
  import opened Text
  import opened JsonValues
  import opened Cards
  import opened Grading
  import opened SeventeenLands
  import opened PlayerLog

  // ---------------------------------------------------------------------
  // Grades

  /** This revision's copy of the grade table. */
  const LegacyGradeThresholds: seq<(Grade, int)> := [
    (APlus, 99), (A, 95), (AMinus, 90),
    (BPlus, 85), (B, 76), (BMinus, 68),
    (CPlus, 57), (C, 45), (CMinus, 36),
    (DPlus, 27), (D, 17), (DMinus, 5),
    (F, 0)
  ]

  /** `get_grade_for_score`: the same first-match scan over this revision's
      table; it grades every score exactly as `score_to_grade` does. */
  function GetGradeForScore(score: real): (g: Grade)
    ensures g == ScoreToGrade(score)
  {
    assert LegacyGradeThresholds == GradeThresholds;
    var k := FirstAtOrBelow(LegacyGradeThresholds, score, 0);
    if k < |LegacyGradeThresholds| then LegacyGradeThresholds[k].0 else F
  }

  // ---------------------------------------------------------------------
  // Pool counting

  /** The sum of a map's values. */
  ghost function Total(m: map<int, nat>): nat
    decreases |m|
  {
    if m.Keys == {} then 0
    else
      NonEmptyHasKey(m);
      var k :| k in m.Keys;
      assert (m - {k}).Keys == m.Keys - {k};
      m[k] + Total(m - {k})
  }

  lemma NonEmptyHasKey(m: map<int, nat>)
    requires m.Keys != {}
    ensures exists k :: k in m.Keys
  {
    if forall k :: k !in m.Keys {
      assert false;
    }
  }

  /** The sum does not depend on which key is taken out first. */
  lemma {:induction false} TotalWithout(m: map<int, nat>, k: int)
    requires k in m
    ensures Total(m) == m[k] + Total(m - {k})
    decreases |m|
  {
    var k0 :| k0 in m && Total(m) == m[k0] + Total(m - {k0});
    if k0 != k {
      assert (m - {k0}).Keys == m.Keys - {k0};
      assert (m - {k}).Keys == m.Keys - {k};
      TotalWithout(m - {k0}, k);
      TotalWithout(m - {k}, k0);
      assert m - {k0} - {k} == m - {k} - {k0};
    }
  }

  /** Counting one more occurrence of `x` adds one to the sum. */
  lemma TotalBump(m: map<int, nat>, x: int)
    ensures Total(m[x := if x in m then m[x] + 1 else 1]) == Total(m) + 1
  {
    var m' := m[x := if x in m then m[x] + 1 else 1];
    TotalWithout(m', x);
    if x in m {
      TotalWithout(m, x);
      assert m' - {x} == m - {x};
    } else {
      assert m' - {x} == m;
    }
  }

  /** The counts after one more copy of `x`. */
  function Bump(counts: map<int, nat>, x: int): map<int, nat> {
    counts[x := if x in counts then counts[x] + 1 else 1]
  }

  /** Counting one more pool entry keeps the counts exact. */
  lemma BumpCounts(counts: map<int, nat>, pool: seq<int>, i: nat)
    requires i < |pool|
    requires counts.Keys == set y | y in pool[..i]
    requires forall y | y in counts :: counts[y] == multiset(pool[..i])[y]
    ensures var next := pool[..i + 1]; Bump(counts, pool[i]).Keys == set y | y in next
    ensures var next := pool[..i + 1];
              forall y | y in Bump(counts, pool[i]) :: Bump(counts, pool[i])[y] == multiset(next)[y]
    ensures Total(Bump(counts, pool[i])) == Total(counts) + 1
  {
    TotalBump(counts, pool[i]);
    assert pool[..i + 1] == pool[..i] + [pool[i]];
    assert multiset(pool[..i + 1]) == multiset(pool[..i]) + multiset{pool[i]};
  }

  datatype PoolError = EmptyPool  // the `assert len(pool) > 0` failing

  /** The loop of `print_sealed_course_info`: one count per distinct id,
      the number of its copies, summing to the pool size. */
  method CountCopies(pool: seq<int>) returns (counts: map<int, nat>)
    ensures counts.Keys == set x | x in pool
    ensures forall x | x in counts :: counts[x] == multiset(pool)[x]
    ensures Total(counts) == |pool|
  {
    counts := map[];
    for i := 0 to |pool|
      invariant counts.Keys == set x | x in pool[..i]
      invariant forall x | x in counts :: counts[x] == multiset(pool[..i])[x]
      invariant Total(counts) == i
    {
      BumpCounts(counts, pool, i);
      counts := Bump(counts, pool[i]);
    }
    assert pool[..|pool|] == pool;
  }

  /** The counting in `print_sealed_course_info`: each distinct card id of
      the pool mapped to the number of copies, which sum to the pool size.
      An empty pool fails the source's assertion. */
  method PoolIdCounts(pool: seq<int>) returns (r: Result<map<int, nat>, PoolError>)
    ensures r.Failure? <==> |pool| == 0
    ensures r.Success? ==> r.value.Keys == set x | x in pool
    ensures r.Success? ==> forall x | x in r.value :: r.value[x] == multiset(pool)[x] > 0
    ensures r.Success? ==> Total(r.value) == |pool|
  {
    if |pool| == 0 {
      return Failure(EmptyPool);
    }
    var counts := CountCopies(pool);
    return Success(counts);
  }

  // ---------------------------------------------------------------------
  // The latest course list in a whole log

  const CoursesMarker: string := "<== EventGetCoursesV2"
  const CourseIdPrefix: string := "<== EventGetCoursesV2("

  /** The id taken from a marker line: the stripped line with every
      occurrence of the prefix and every ')' removed. */
  function CourseId(line: string): (id: string)
    ensures ')' !in id && |id| <= |line|
  {
    RemoveAll(RemoveAll(Strip(line), CourseIdPrefix), ")")
  }

  /** On the marker line the client writes, the id is exactly the
      correlation id between the parentheses. */
  lemma CourseIdOfMarkerLine(id: string)
    requires forall i | 0 <= i < |id| :: IsIdChar(id[i])
    ensures CourseId(CourseIdPrefix + id + ")") == id
  {
    var line := CourseIdPrefix + id + ")";
    MarkerLineIsStripped(line);
    assert '<' !in id && ')' !in id;
    PrefixAndParenRemoved(CourseIdPrefix, id);
  }

  /** The same for the marker line as `readlines` returns it, still ending
      in its line break. */
  lemma CourseIdOfTerminatedMarkerLine(id: string)
    requires forall i | 0 <= i < |id| :: IsIdChar(id[i])
    ensures CourseId(CourseIdPrefix + id + ")\n") == id
  {
    var line := CourseIdPrefix + id + ")";
    MarkerLineIsStripped(line);
    assert CourseIdPrefix + id + ")\n" == line + "\n";
    assert '<' !in id && ')' !in id;
    PrefixAndParenRemoved(CourseIdPrefix, id);
  }

  /** A line starting with '<' and ending with ')' has nothing to strip,
      and stripping it with a trailing line break removes just the break. */
  lemma MarkerLineIsStripped(line: string)
    requires |line| > 0 && line[0] == '<' && line[|line| - 1] == ')'
    ensures Strip(line) == line
    ensures Strip(line + "\n") == line
  {
    var t := line + "\n";
    assert t[0] == '<' && TrimStart(t) == t;
    assert IsSpace(t[|t| - 1]) && t[..|t| - 1] == line;
    assert TrimEnd(t) == TrimEnd(line);
  }

  /** Removing a prefix whose first character is absent from the rest of
      the line, and then ')', leaves the id between them. */
  lemma PrefixAndParenRemoved(prefix: string, id: string)
    requires |prefix| > 0 && prefix[0] != ')' && prefix[0] !in id && ')' !in id
    ensures RemoveAll(RemoveAll(prefix + id + ")", prefix), ")") == id
  {
    var rest := id + ")";
    assert prefix + id + ")" == prefix + rest;
    assert prefix[0] !in rest by {
      assert forall i | 0 <= i < |rest| :: rest[i] == (if i < |id| then id[i] else ')');
    }
    RemoveLeadingPattern(prefix, rest);
    RemoveTrailingChar(id, ')');
  }

  /** The exceptions `get_latest_event_courses` lets escape. */
  datatype CoursesError =
    | MarkerOnLastLine      // `log_lines[i+1]` past the end (IndexError)
    | MalformedCoursesJson  // the line after a marker does not decode
    | MissingCourses        // the decoded line has no "Courses" member
    | CoursesNotSized       // `len()` of a number, boolean or null (TypeError)
    | NoCoursesEvent        // no marker at all: the lookup of "" (KeyError)

  /** `doc["Courses"]`, failing as the source does when that value has no
      length to print. */
  function CoursesOf(doc: Json): Result<Json, CoursesError> {
    match Member(doc, "Courses")
    case None => Failure(MissingCourses)
    case Some(courses) =>
      if courses.JArray? || courses.JObject? || courses.JString? then Success(courses)
      else Failure(CoursesNotSized)
  }

  /** Whether a line announces a course list. */
  predicate IsCoursesMarkerLine(line: string) {
    Contains(line, CoursesMarker)
  }

  /** The loop of `get_latest_event_courses` from line `i` on, with the
      courses seen so far by id and the id seen last. The marker test and
      the id extraction are parameters, so the facts below about the loop
      hold whatever they are; `LatestEventCourses` passes the source's own. */
  function ScanCourses(lines: seq<string>, parse: Parser, isMarker: string -> bool, idOf: string -> string,
                       i: nat, seen: map<string, Json>, latest: string)
    : (r: Result<(map<string, Json>, string), CoursesError>)
    requires i <= |lines|
    ensures r.Success? ==> seen.Keys <= r.value.0.Keys
    ensures r.Success? && r.value.1 != latest ==> r.value.1 in r.value.0
    ensures r.Failure? ==> r.error != NoCoursesEvent
    decreases |lines| - i
  {
    if i == |lines| then Success((seen, latest))
    else if !isMarker(lines[i]) then ScanCourses(lines, parse, isMarker, idOf, i + 1, seen, latest)
    else if i + 1 == |lines| then Failure(MarkerOnLastLine)
    else
      var doc := parse(lines[i + 1]);
      if doc.None? then Failure(MalformedCoursesJson)
      else
        var courses := CoursesOf(doc.value);
        if courses.Failure? then Failure(courses.error)
        else
          var id := idOf(lines[i]);
          ScanCourses(lines, parse, isMarker, idOf, i + 1, seen[id := doc.value], id)
  }

  /** `get_latest_event_courses` for a given marker test and id extraction:
      the scan, then the lookup of the latest id. */
  function LatestCourses(lines: seq<string>, parse: Parser, isMarker: string -> bool, idOf: string -> string)
    : (r: Result<Json, CoursesError>)
    ensures r.Success? ==> r.value.JArray? || r.value.JObject? || r.value.JString?
    ensures r.Failure? && r.error == NoCoursesEvent ==>
              var scan := ScanCourses(lines, parse, isMarker, idOf, 0, map[], "");
              scan.Success? && scan.value.1 == "" && "" !in scan.value.0
  {
    var scan := ScanCourses(lines, parse, isMarker, idOf, 0, map[], "");
    if scan.Failure? then Failure(scan.error)
    else
      var seen := scan.value.0;
      var latest := scan.value.1;
      if latest in seen then CoursesOf(seen[latest]) else Failure(NoCoursesEvent)
  }

  /** `get_latest_event_courses` itself. */
  function LatestEventCourses(lines: seq<string>, parse: Parser): (r: Result<Json, CoursesError>)
    ensures r.Success? ==>
              var m := LastMarkerBefore(lines, IsCoursesMarkerLine, |lines|);
              && m.Some? && m.value + 1 < |lines|
              && parse(lines[m.value + 1]).Some?
              && r == CoursesOf(parse(lines[m.value + 1]).value)
    ensures (forall i | 0 <= i < |lines| :: !IsCoursesMarkerLine(lines[i])) ==> r == Failure(NoCoursesEvent)
  {
    LatestCoursesFollowLastMarker(lines, parse, IsCoursesMarkerLine, CourseId);
    LatestCoursesErrors(lines, parse, IsCoursesMarkerLine, CourseId);
    LatestCourses(lines, parse, IsCoursesMarkerLine, CourseId)
  }

  /** The last marker line before line `n`. */
  function LastMarkerBefore(lines: seq<string>, isMarker: string -> bool, n: nat): (r: Option<nat>)
    requires n <= |lines|
    ensures r.Some? ==> r.value < n
  {
    if n == 0 then None
    else if isMarker(lines[n - 1]) then Some(n - 1)
    else LastMarkerBefore(lines, isMarker, n - 1)
  }

  /** `LastMarkerBefore` finds a marker line, and none follows it. */
  lemma {:induction false} LastMarkerBeforeIsLast(lines: seq<string>, isMarker: string -> bool, n: nat)
    requires n <= |lines|
    ensures var r := LastMarkerBefore(lines, isMarker, n);
              && (r.Some? ==> isMarker(lines[r.value]))
              && (r.Some? ==> forall j | r.value < j < n :: !isMarker(lines[j]))
              && (r.None? ==> forall j | 0 <= j < n :: !isMarker(lines[j]))
    decreases n
  {
    if n > 0 && !isMarker(lines[n - 1]) {
      LastMarkerBeforeIsLast(lines, isMarker, n - 1);
    }
  }

  /** What the scan's variables hold after the lines before `n`: nothing
      before any marker; after one, `latest` is the last marker's id and is
      stored with the document on the line following that marker. */
  predicate ScanState(lines: seq<string>, parse: Parser, isMarker: string -> bool, idOf: string -> string,
                      n: nat, seen: map<string, Json>, latest: string)
    requires n <= |lines|
  {
    var last := LastMarkerBefore(lines, isMarker, n);
    if last.None? then seen == map[] && latest == ""
    else
      && last.value + 1 < |lines|
      && latest == idOf(lines[last.value])
      && latest in seen
      && parse(lines[last.value + 1]) == Some(seen[latest])
      && CoursesOf(seen[latest]).Success?
  }

  /** A line without the marker leaves the scan's variables as they are. */
  lemma ScanStateSkip(lines: seq<string>, parse: Parser, isMarker: string -> bool, idOf: string -> string,
                      i: nat, seen: map<string, Json>, latest: string)
    requires i < |lines| && !isMarker(lines[i])
    requires ScanState(lines, parse, isMarker, idOf, i, seen, latest)
    ensures ScanState(lines, parse, isMarker, idOf, i + 1, seen, latest)
    ensures ScanCourses(lines, parse, isMarker, idOf, i, seen, latest)
            == ScanCourses(lines, parse, isMarker, idOf, i + 1, seen, latest)
  {
    assert LastMarkerBefore(lines, isMarker, i + 1) == LastMarkerBefore(lines, isMarker, i);
  }

  /** A marker followed by a well-formed document stores it under the
      marker's id and makes that id the latest. */
  lemma ScanStateStore(lines: seq<string>, parse: Parser, isMarker: string -> bool, idOf: string -> string,
                       i: nat, seen: map<string, Json>, latest: string, doc: Json)
    requires i + 1 < |lines| && isMarker(lines[i])
    requires parse(lines[i + 1]) == Some(doc) && CoursesOf(doc).Success?
    ensures ScanState(lines, parse, isMarker, idOf, i + 1, seen[idOf(lines[i]) := doc], idOf(lines[i]))
    ensures ScanCourses(lines, parse, isMarker, idOf, i, seen, latest)
            == ScanCourses(lines, parse, isMarker, idOf, i + 1, seen[idOf(lines[i]) := doc], idOf(lines[i]))
  {
    assert LastMarkerBefore(lines, isMarker, i + 1) == Some(i);
  }

  /** The scan keeps `ScanState` to the end of the log. */
  lemma {:induction false} ScanCoursesKeepsState(lines: seq<string>, parse: Parser, isMarker: string -> bool,
                                                 idOf: string -> string, i: nat,
                                                 seen: map<string, Json>, latest: string)
    requires i <= |lines|
    requires ScanState(lines, parse, isMarker, idOf, i, seen, latest)
    ensures var r := ScanCourses(lines, parse, isMarker, idOf, i, seen, latest);
              r.Success? ==> ScanState(lines, parse, isMarker, idOf, |lines|, r.value.0, r.value.1)
    decreases |lines| - i
  {
    if i < |lines| {
      if !isMarker(lines[i]) {
        ScanStateSkip(lines, parse, isMarker, idOf, i, seen, latest);
        ScanCoursesKeepsState(lines, parse, isMarker, idOf, i + 1, seen, latest);
      } else if i + 1 < |lines| && parse(lines[i + 1]).Some? && CoursesOf(parse(lines[i + 1]).value).Success? {
        var doc := parse(lines[i + 1]).value;
        ScanStateStore(lines, parse, isMarker, idOf, i, seen, latest, doc);
        ScanCoursesKeepsState(lines, parse, isMarker, idOf, i + 1, seen[idOf(lines[i]) := doc], idOf(lines[i]));
      }
    }
  }

  /** The result is the "Courses" of the document on the line after the
      LAST marker line; a later marker with a repeated id overwrites the
      earlier entry, so earlier lists never win. */
  lemma LatestCoursesFollowLastMarker(lines: seq<string>, parse: Parser,
      isMarker: string -> bool, idOf: string -> string)
    ensures var r := LatestCourses(lines, parse, isMarker, idOf);
              r.Success? ==>
                && LastMarkerBefore(lines, isMarker, |lines|).Some?
                && var m := LastMarkerBefore(lines, isMarker, |lines|).value;
                && m + 1 < |lines|
                && isMarker(lines[m])
                && (forall j | m < j < |lines| :: !isMarker(lines[j]))
                && parse(lines[m + 1]).Some?
                && r == CoursesOf(parse(lines[m + 1]).value)
  {
    ScanCoursesKeepsState(lines, parse, isMarker, idOf, 0, map[], "");
    LastMarkerBeforeIsLast(lines, isMarker, |lines|);
  }

  /** With no marker line the final lookup of "" fails; with a marker on the
      last line the read of the following line fails. */
  lemma LatestCoursesErrors(lines: seq<string>, parse: Parser,
      isMarker: string -> bool, idOf: string -> string)
    ensures (forall j | 0 <= j < |lines| :: !isMarker(lines[j])) ==>
              LatestCourses(lines, parse, isMarker, idOf) == Failure(NoCoursesEvent)
    ensures |lines| > 0 && isMarker(lines[|lines| - 1]) ==> LatestCourses(lines, parse, isMarker, idOf).Failure?
  {
    ScanCoursesKeepsState(lines, parse, isMarker, idOf, 0, map[], "");
    LastMarkerBeforeIsLast(lines, isMarker, |lines|);
    if forall j | 0 <= j < |lines| :: !isMarker(lines[j]) {
      assert MarkersWellFormed(lines, parse, isMarker);
      ScanCoursesSucceeds(lines, parse, isMarker, idOf, 0, map[], "");
    }
  }

  /** Every marker is followed by a line holding a document with a sized
      "Courses" member. */
  predicate MarkersWellFormed(lines: seq<string>, parse: Parser, isMarker: string -> bool) {
    forall i | 0 <= i < |lines| && isMarker(lines[i]) ::
      i + 1 < |lines| && parse(lines[i + 1]).Some? && CoursesOf(parse(lines[i + 1]).value).Success?
  }

  /** With well-formed markers the scan never fails. */
  lemma {:induction false} ScanCoursesSucceeds(lines: seq<string>, parse: Parser, isMarker: string -> bool,
                                              idOf: string -> string, i: nat,
                                              seen: map<string, Json>, latest: string)
    requires i <= |lines|
    requires MarkersWellFormed(lines, parse, isMarker)
    ensures ScanCourses(lines, parse, isMarker, idOf, i, seen, latest).Success?
    decreases |lines| - i
  {
    if i < |lines| {
      if isMarker(lines[i]) {
        var id := idOf(lines[i]);
        ScanCoursesSucceeds(lines, parse, isMarker, idOf, i + 1, seen[id := parse(lines[i + 1]).value], id);
      } else {
        ScanCoursesSucceeds(lines, parse, isMarker, idOf, i + 1, seen, latest);
      }
    }
  }

  /** A scan that succeeds from line `i` met only well-formed markers there:
      a bad course document after any marker aborts the whole scan. */
  lemma {:induction false} ScanCoursesNeedsWellFormed(lines: seq<string>, parse: Parser,
                                                      isMarker: string -> bool, idOf: string -> string,
                                                      i: nat, seen: map<string, Json>, latest: string)
    requires i <= |lines|
    requires ScanCourses(lines, parse, isMarker, idOf, i, seen, latest).Success?
    ensures forall j | i <= j < |lines| && isMarker(lines[j]) ::
              j + 1 < |lines| && parse(lines[j + 1]).Some? && CoursesOf(parse(lines[j + 1]).value).Success?
    decreases |lines| - i
  {
    if i < |lines| {
      if isMarker(lines[i]) {
        var id := idOf(lines[i]);
        ScanCoursesNeedsWellFormed(lines, parse, isMarker, idOf, i + 1, seen[id := parse(lines[i + 1]).value], id);
      } else {
        ScanCoursesNeedsWellFormed(lines, parse, isMarker, idOf, i + 1, seen, latest);
      }
    }
  }

  /** A log yields a course list exactly when it has at least one marker
      and every marker is followed by a well-formed course document. */
  lemma LatestCoursesSucceed(lines: seq<string>, parse: Parser,
      isMarker: string -> bool, idOf: string -> string)
    ensures LatestCourses(lines, parse, isMarker, idOf).Success? <==>
              MarkersWellFormed(lines, parse, isMarker) && exists i | 0 <= i < |lines| :: isMarker(lines[i])
  {
    if MarkersWellFormed(lines, parse, isMarker) && exists i | 0 <= i < |lines| :: isMarker(lines[i]) {
      ScanCoursesSucceeds(lines, parse, isMarker, idOf, 0, map[], "");
      ScanCoursesKeepsState(lines, parse, isMarker, idOf, 0, map[], "");
      LastMarkerBeforeIsLast(lines, isMarker, |lines|);
    }
    if LatestCourses(lines, parse, isMarker, idOf).Success? {
      ScanCoursesNeedsWellFormed(lines, parse, isMarker, idOf, 0, map[], "");
      LatestCoursesFollowLastMarker(lines, parse, isMarker, idOf);
    }
  }

  // ---------------------------------------------------------------------
  // Sealed courses, by deck attribute

  /** An attribute saying the deck's format is sealed. */
  predicate IsSealedFormat(a: Attribute) {
    a.name == "Format" && a.value == "Sealed"
  }

  /** The positions of the sealed-format attributes. */
  function SealedFormatSlots(attrs: seq<Attribute>): set<nat> {
    set i: nat | i < |attrs| && IsSealedFormat(attrs[i])
  }

  /** The inner loop of the old `get_sealed_courses`: one copy of the
      course per sealed-format attribute. */
  function SealedCopies(course: Course, attrs: seq<Attribute>): (r: seq<Course>)
    ensures |r| == |SealedFormatSlots(attrs)|
    ensures forall x | x in r :: x == course
  {
    if |attrs| == 0 then []
    else
      var init := attrs[..|attrs| - 1];
      var last := |attrs| - 1;
      assert SealedFormatSlots(attrs) ==
             SealedFormatSlots(init) + (if IsSealedFormat(attrs[last]) then {last} else {});
      SealedCopies(course, init) + (if IsSealedFormat(attrs[last]) then [course] else [])
  }

  /** The old `get_sealed_courses`: each course once per sealed-format
      attribute of its deck summary, in course order. */
  function SealedCoursesByFormat(courses: seq<Course>): (r: seq<Course>)
    ensures forall c | c in r :: c in courses
  {
    if |courses| == 0 then []
    else
      var last := courses[|courses| - 1];
      SealedCoursesByFormat(courses[..|courses| - 1]) + SealedCopies(last, last.deckAttributes)
  }

  /** A course is kept exactly when some attribute of its deck summary says
      "Format: Sealed". */
  lemma {:induction false} SealedCoursesByFormatMembers(courses: seq<Course>, c: Course)
    ensures c in SealedCoursesByFormat(courses) <==>
              c in courses && exists i | 0 <= i < |c.deckAttributes| :: IsSealedFormat(c.deckAttributes[i])
    decreases |courses|
  {
    if |courses| > 0 {
      var init := courses[..|courses| - 1];
      var last := courses[|courses| - 1];
      var copies := SealedCopies(last, last.deckAttributes);
      SealedCoursesByFormatMembers(init, c);
      assert courses == init + [last];
      if exists i | 0 <= i < |last.deckAttributes| :: IsSealedFormat(last.deckAttributes[i]) {
        var i :| 0 <= i < |last.deckAttributes| && IsSealedFormat(last.deckAttributes[i]);
        assert i in SealedFormatSlots(last.deckAttributes);
        assert |SealedFormatSlots(last.deckAttributes)| > 0;
        assert copies[0] in copies;
      }
      if c in copies {
        var i :| i in SealedFormatSlots(last.deckAttributes);
      }
    }
  }

  /** A single course comes out once per sealed-format attribute of its
      deck summary (not at all without one, several times with several). */
  lemma SealedCoursesByFormatSingle(c: Course)
    ensures SealedCoursesByFormat([c]) == SealedCopies(c, c.deckAttributes)
    ensures |SealedCoursesByFormat([c])| == |SealedFormatSlots(c.deckAttributes)|
  {
    assert [c][..0] == [];
  }

  /** The old filter keeps course order. */
  lemma {:induction false} SealedCoursesByFormatConcat(a: seq<Course>, b: seq<Course>)
    ensures SealedCoursesByFormat(a + b) == SealedCoursesByFormat(a) + SealedCoursesByFormat(b)
    decreases |b|
  {
    if |b| == 0 {
      assert a + b == a;
    } else {
      var b' := b[..|b| - 1];
      var last := b[|b| - 1];
      assert (a + b)[..|a + b| - 1] == a + b';
      assert (a + b)[|a + b| - 1] == last;
      assert SealedCoursesByFormat(a + b)
          == SealedCoursesByFormat(a + b') + SealedCopies(last, last.deckAttributes);
      assert SealedCoursesByFormat(b) == SealedCoursesByFormat(b') + SealedCopies(last, last.deckAttributes);
      SealedCoursesByFormatConcat(a, b');
    }
  }

  // ---------------------------------------------------------------------
  // Key histogram and grading

  /** One pass of this revision's `print_rankings_key_histogram` loop: its
      four tests written out one after the other, then the count under
      "all". */
  method LegacyTallyCard(histogram: map<string, nat>, card: Card) returns (r: map<string, nat>)
    requires histogram.Keys == HistogramKeys()
    ensures r.Keys == HistogramKeys()
    ensures r["all"] == histogram["all"] + 1
    ensures forall m: Metric :: r[m.Key()] == histogram[m.Key()] + (if Truthy(card.Get(m)) then 1 else 0)
  {
    MetricKeysDistinct();
    r := histogram;
    if Truthy(card.everDrawnWinRate) {
      r := r["ever_drawn_win_rate" := r["ever_drawn_win_rate"] + 1];
    }
    if Truthy(card.everDrawnGameCount) {
      r := r["ever_drawn_game_count" := r["ever_drawn_game_count"] + 1];
    }
    if Truthy(card.drawnWinRate) {
      r := r["drawn_win_rate" := r["drawn_win_rate"] + 1];
    }
    if Truthy(card.winRate) {
      r := r["win_rate" := r["win_rate"] + 1];
    }
    r := r["all" := r["all"] + 1];
  }

  /** This revision's `print_rankings_key_histogram`: the same counts as
      the later revision's loop over the tracked metrics. */
  method LegacyKeyHistogram(cards: seq<Card>) returns (histogram: map<string, nat>)
    ensures histogram.Keys == HistogramKeys()
    ensures histogram["all"] == |cards|
    ensures forall m: Metric :: histogram[m.Key()] == CountTruthy(cards, m) <= |cards|
  {
    histogram := map["all" := 0, "ever_drawn_win_rate" := 0, "ever_drawn_game_count" := 0,
                     "drawn_win_rate" := 0, "win_rate" := 0];
    for i := 0 to |cards|
      invariant histogram.Keys == HistogramKeys()
      invariant histogram["all"] == i
      invariant forall m: Metric :: histogram[m.Key()] == CountTruthy(cards[..i], m)
    {
      CountTruthyExtend(cards, i);
      histogram := LegacyTallyCard(histogram, cards[i]);
    }
    assert cards[..|cards|] == cards;
  }

  /** A record of this revision after grading: the record itself with a
      score and a grade for the overall win rate and for the ever-drawn
      win rate. */
  datatype LegacyRanking = LegacyRanking(
    card: Card,
    score: Option<real>,
    grade: Option<Grade>,
    everDrawnScore: Option<real>,
    everDrawnGrade: Option<Grade>)

  /** One pass of the grading loop of `get_graded_rankings`: a score and its
      grade are set together, exactly when the matching win rate is truthy,
      each score measured against its own batch of samples. */
  function LegacyEnrichCard(card: Card, winSamples: seq<real>, everDrawnSamples: seq<real>,
                            cdf: (seq<real>, real) -> real): (r: LegacyRanking)
    ensures r.card == card
    ensures r.score.Some? <==> Truthy(card.winRate)
    ensures r.grade.Some? <==> r.score.Some?
    ensures r.score.Some? ==> r.score.value == cdf(winSamples, card.winRate.value) * 100.0
    ensures r.grade.Some? ==> r.grade.value == ScoreToGrade(r.score.value)
    ensures r.everDrawnScore.Some? <==> Truthy(card.everDrawnWinRate)
    ensures r.everDrawnGrade.Some? <==> r.everDrawnScore.Some?
    ensures r.everDrawnScore.Some? ==>
              r.everDrawnScore.value == cdf(everDrawnSamples, card.everDrawnWinRate.value) * 100.0
    ensures r.everDrawnGrade.Some? ==> r.everDrawnGrade.value == ScoreToGrade(r.everDrawnScore.value)
  {
    var score := if Truthy(card.winRate) then Some(cdf(winSamples, card.winRate.value) * 100.0) else None;
    var everDrawnScore :=
      if Truthy(card.everDrawnWinRate) then Some(cdf(everDrawnSamples, card.everDrawnWinRate.value) * 100.0)
      else None;
    LegacyRanking(
      card,
      score,
      if score.Some? then Some(GetGradeForScore(score.value)) else None,
      everDrawnScore,
      if everDrawnScore.Some? then Some(GetGradeForScore(everDrawnScore.value)) else None)
  }

  /** This revision's `get_graded_rankings` on the provider's records: one
      graded record per distinct id, the last record with that id, scored
      against the truthy win rates and ever-drawn win rates of the batch. */
  function LegacyGradedRankings(cards: seq<Card>, cdf: (seq<real>, real) -> real): (r: map<int, LegacyRanking>)
    ensures r.Keys == Ids(cards)
    ensures forall id | id in r :: r[id].card.mtgaId == id
    ensures forall id | id in r ::
              r[id] == LegacyEnrichCard(ByArenaId(cards)[id], Samples(cards, WinRate),
                                        Samples(cards, EverDrawnWinRate), cdf)
  {
    var byId := ByArenaId(cards);
    var winSamples := Samples(cards, WinRate);
    var everDrawnSamples := Samples(cards, EverDrawnWinRate);
    map id | id in byId :: LegacyEnrichCard(byId[id], winSamples, everDrawnSamples, cdf)
  }

  /** The two revisions agree on the ever-drawn score of every card, and
      this revision's ever-drawn grade is the grade of that score. Apart
      from the land colour, which only the later revision fills in, they
      describe the same record. */
  lemma LegacyAgreesWithCurrent(cards: seq<Card>, cdf: (seq<real>, real) -> real,
                                landColors: string -> string, id: int)
    requires id in Ids(cards)
    ensures var legacy := LegacyGradedRankings(cards, cdf)[id];
            var current := GradedRankings(cards, cdf, landColors)[id];
              && legacy.everDrawnScore == current.everDrawnScore
              && (current.everDrawnScore.Some? ==>
                    legacy.everDrawnGrade == Some(ScoreToGrade(current.everDrawnScore.value)))
              && legacy.card == current.card.(color := legacy.card.color)
  {
    var card := ByArenaId(cards)[id];
    var everDrawnSamples := Samples(cards, EverDrawnWinRate);
    assert LegacyGradedRankings(cards, cdf)[id]
        == LegacyEnrichCard(card, Samples(cards, WinRate), everDrawnSamples, cdf);
    assert GradedRankings(cards, cdf, landColors)[id] == EnrichCard(card, everDrawnSamples, cdf, landColors);
  }
}

=== FILE: grading.dfy ===
/** The letter-grade scale and the mapping from percentile scores to grades
    (mtga_helper/grading.py). Scores are `real`; the fitted normal
    distribution that produces them is outside this module. */
module Grading {
  import opened Wrappers
  import opened Cards

  /** The thirteen grades, best first. */
  datatype Grade = APlus | A | AMinus | BPlus | B | BMinus | CPlus | C | CMinus | DPlus | D | DMinus | F {

    /** Position on the scale: 0 for A+, 12 for F. */
    function Rank(): nat {
      match this
      case APlus => 0
      case A => 1
      case AMinus => 2
      case BPlus => 3
      case B => 4
      case BMinus => 5
      case CPlus => 6
      case C => 7
      case CMinus => 8
      case DPlus => 9
      case D => 10
      case DMinus => 11
      case F => 12
    }

    /** The enum's string value. */
    function Text(): string {
      match this
      case APlus => "A+"
      case A => "A"
      case AMinus => "A-"
      case BPlus => "B+"
      case B => "B"
      case BMinus => "B-"
      case CPlus => "C+"
      case C => "C"
      case CMinus => "C-"
      case DPlus => "D+"
      case D => "D"
      case DMinus => "D-"
      case F => "F"
    }
  }

  /** Inclusive lower bounds, in the order the scan visits them. */
  const GradeThresholds: seq<(Grade, int)> := [
    (APlus, 99), (A, 95), (AMinus, 90),
    (BPlus, 85), (B, 76), (BMinus, 68),
    (CPlus, 57), (C, 45), (CMinus, 36),
    (DPlus, 27), (D, 17), (DMinus, 5),
    (F, 0)
  ]

  /** The lower bound of grade `g` in the table. */
  function Threshold(g: Grade): int {
    GradeThresholds[g.Rank()].1
  }

  /** The scale is well formed: thirteen grades listed best to worst, strictly
      descending bounds, and the worst grade's bound is 0. */
  lemma GradeTableShape()
    ensures |GradeThresholds| == 13
    ensures forall i | 0 <= i < |GradeThresholds| :: GradeThresholds[i].0.Rank() == i
    ensures forall i, j | 0 <= i < j < |GradeThresholds| :: GradeThresholds[i].1 > GradeThresholds[j].1
    ensures GradeThresholds[12] == (F, 0)
  {
  }

  /** Different grades have different ranks and different texts. */
  lemma GradesDistinct(a: Grade, b: Grade)
    ensures a.Rank() == b.Rank() ==> a == b
    ensures a.Text() == b.Text() ==> a == b
    ensures a.Text() != ""
  {
  }

  /** A better grade always has a higher bound. */
  lemma ThresholdsDescend(a: Grade, b: Grade)
    ensures a.Rank() < b.Rank() <==> Threshold(a) > Threshold(b)
  {
    GradeTableShape();
  }

  /** The index of the first table row, from `from` on, whose bound is at most
      `score`; `|table|` when there is none. */
  function FirstAtOrBelow(table: seq<(Grade, int)>, score: real, from: nat): (k: nat)
    requires from <= |table|
    ensures from <= k <= |table|
    ensures forall j | from <= j < k :: score < table[j].1 as real
    ensures k < |table| ==> table[k].1 as real <= score
    decreases |table| - from
  {
    if from == |table| then from
    else if score >= table[from].1 as real then from
    else FirstAtOrBelow(table, score, from + 1)
  }

  /** `score_to_grade`: the first grade, in table order, whose bound is at
      most the score, and F when no bound is (negative scores). */
  function ScoreToGrade(score: real): (g: Grade)
    ensures 0.0 <= score ==> Threshold(g) as real <= score
    ensures score < 0.0 ==> g == F
    ensures forall h: Grade :: h.Rank() < g.Rank() ==> score < Threshold(h) as real
  {
    GradeTableShape();
    var k := FirstAtOrBelow(GradeThresholds, score, 0);
    if k < |GradeThresholds| then GradeThresholds[k].0 else F
  }

  /** Every grade's bound is inclusive: scoring exactly the bound earns it. */
  lemma ThresholdEarnsGrade(g: Grade)
    ensures ScoreToGrade(Threshold(g) as real) == g
  {
    var s := Threshold(g) as real;
    var r := ScoreToGrade(s);
    GradeTableShape();
    ThresholdsDescend(r, g);
    ThresholdsDescend(g, r);
    GradesDistinct(r, g);
  }

  /** A higher score never earns a worse grade. */
  lemma ScoreToGradeMonotonic(lo: real, hi: real)
    requires lo <= hi
    ensures ScoreToGrade(hi).Rank() <= ScoreToGrade(lo).Rank()
  {
    var gl, gh := ScoreToGrade(lo), ScoreToGrade(hi);
  }

  /** Every score below the D- bound, negative ones included, earns F. */
  lemma LowScoresFail(score: real)
    requires score < 5.0
    ensures ScoreToGrade(score) == F
  {
    var g := ScoreToGrade(score);
    if g != F && g != DMinus {
      ThresholdsDescend(g, DMinus);
    }
  }

  /** `score_to_grade_string`, without the colouring: empty for a missing or
      zero score, otherwise the text of the score's grade. */
  function ScoreToGradeText(score: Option<real>): (r: string)
    ensures r == "" <==> !Truthy(score)
    ensures Truthy(score) ==> r == ScoreToGrade(score.value).Text()
  {
    if !Truthy(score) then ""
    else
      var g := ScoreToGrade(score.value);
      GradesDistinct(g, g);
      g.Text()
  }

  /** The samples `get_normal_distribution` collects: the truthy values of
      metric `m`, in record order. */
  function Samples(cards: seq<Card>, m: Metric): (r: seq<real>)
    ensures |r| == CountTruthy(cards, m)
    ensures forall i | 0 <= i < |r| :: r[i] != 0.0
  {
    if |cards| == 0 then []
    else
      var last := cards[|cards| - 1].Get(m);
      Samples(cards[..|cards| - 1], m) + (if Truthy(last) then [last.value] else [])
  }

  /** Sampling respects record order: the samples of a concatenation are the
      samples of its parts, one after the other. */
  lemma {:induction false} SamplesConcat(a: seq<Card>, b: seq<Card>, m: Metric)
    ensures Samples(a + b, m) == Samples(a, m) + Samples(b, m)
    decreases |b|
  {
    if |b| == 0 {
      assert a + b == a;
    } else {
      var b' := b[..|b| - 1];
      assert (a + b)[..|a + b| - 1] == a + b';
      assert (a + b)[|a + b| - 1] == b[|b| - 1];
      SamplesConcat(a, b', m);
    }
  }

  /** A value is sampled exactly when some record carries it as a truthy
      metric: null and zero metrics never reach the distribution. */
  lemma {:induction false} SamplesMembership(cards: seq<Card>, m: Metric, v: real)
    ensures v in Samples(cards, m) <==>
              exists i | 0 <= i < |cards| :: Truthy(cards[i].Get(m)) && cards[i].Get(m).value == v
    decreases |cards|
  {
    if |cards| > 0 {
      var init := cards[..|cards| - 1];
      SamplesMembership(init, m, v);
      if v in Samples(cards, m) && v !in Samples(init, m) {
        var last := |cards| - 1;
        assert Truthy(cards[last].Get(m)) && cards[last].Get(m).value == v;
      }
      if exists i | 0 <= i < |cards| :: Truthy(cards[i].Get(m)) && cards[i].Get(m).value == v {
        var i :| 0 <= i < |cards| && Truthy(cards[i].Get(m)) && cards[i].Get(m).value == v;
        if i < |cards| - 1 {
          assert init[i] == cards[i];
        }
      }
    }
  }
}

=== FILE: json_values.dfy ===
/** Decoded JSON documents, as Python's `json.loads` returns them.
    Decoding itself is not modelled: every operation that decodes text takes a
    `Parser`, an arbitrary partial function from text to a document, whose
    `None` stands for `json.decoder.JSONDecodeError`. */
module JsonValues {
  import opened Wrappers

  datatype Json =
    | JNull
    | JBool(b: bool)
    | JNumber(n: real)
    | JString(text: string)
    | JArray(items: seq<Json>)
    | JObject(fields: map<string, Json>)

  type Parser = string -> Option<Json>

  /** Python's `doc[key]` on a decoded document: `None` when the document is
      not an object (TypeError) or lacks the key (KeyError). */
  function Member(doc: Json, key: string): Option<Json> {
    if doc.JObject? && key in doc.fields then Some(doc.fields[key]) else None
  }
}

=== FILE: player_log.dfy ===
/** The event demultiplexer of mtga_helper/mtga_log.py (`follow_player_log`)
    and the sealed-course filter next to it.

    The parser keeps one string of state, the name of the event whose payload
    is expected on the next line ("" when idle). The model runs it over a
    finite sequence of already-stripped lines and records, in order, the
    observations it logs and the handler calls it makes. Handler tables are
    sets of registered event names; a dispatch is recorded as the name and
    the payload the handler under that name receives. */
module PlayerLog {
  import opened Wrappers
  import opened Text
  import opened JsonValues

  // ---------------------------------------------------------------------
  // The two regular expressions

  /** A character of the regex class `\w` (ASCII letters, digits, `_`). */
  predicate IsWordChar(c: char) {
    ('a' <= c <= 'z') || ('A' <= c <= 'Z') || ('0' <= c <= '9') || c == '_'
  }

  /** A character of the regex class `[a-f0-9-]`. */
  predicate IsIdChar(c: char) {
    ('a' <= c <= 'f') || ('0' <= c <= '9') || c == '-'
  }

  /** A non-empty run of `\w` characters: what `(\w+)` captures. */
  predicate IsWord(s: string) {
    |s| > 0 && forall i | 0 <= i < |s| :: IsWordChar(s[i])
  }

  /** The end of the longest run of characters satisfying `p` from `i`. */
  function SpanEnd(s: string, i: nat, p: char -> bool): (j: nat)
    requires i <= |s|
    ensures i <= j <= |s|
    ensures forall k | i <= k < j :: p(s[k])
    ensures j < |s| ==> !p(s[j])
    decreases |s| - i
  {
    if i < |s| && p(s[i]) then SpanEnd(s, i + 1, p) else i
  }

  const ResponseArrow: string := "<== "

  /** `<== (\w+)\(([a-f0-9-]+)\)` matches at `i`, its word ending at `j` and
      its id at `k` (the regex, stated declaratively). */
  predicate ResponseShape(line: string, i: nat, j: nat, k: nat) {
    && i + 4 < j < k < |line|
    && line[i..i + 4] == ResponseArrow
    && (forall x | i + 4 <= x < j :: IsWordChar(line[x]))
    && line[j] == '('
    && j + 1 < k
    && (forall x | j + 1 <= x < k :: IsIdChar(line[x]))
    && line[k] == ')'
  }

  /** Group 1 of `<== (\w+)\(([a-f0-9-]+)\)` matched at position `i`. Neither
      `+` can backtrack usefully: each run is followed by a character outside
      its class, so only the longest run can be followed by it. */
  function MatchResponseAt(line: string, i: nat): (r: Option<string>)
    ensures r.Some? ==> IsWord(r.value)
  {
    if i + 4 <= |line| && line[i..i + 4] == ResponseArrow then
      var j := SpanEnd(line, i + 4, IsWordChar);
      if i + 4 < j < |line| && line[j] == '(' then
        var k := SpanEnd(line, j + 1, IsIdChar);
        if j + 1 < k < |line| && line[k] == ')' then Some(line[i + 4..j]) else None
      else None
    else None
  }

  /** The matcher and the regex agree: a match at `i` capturing `name` exists
      exactly when the matcher returns `name`. */
  lemma MatchResponseAtIsRegex(line: string, i: nat, name: string)
    ensures MatchResponseAt(line, i) == Some(name) <==>
              exists j: nat, k: nat :: ResponseShape(line, i, j, k) && name == line[i + 4..j]
  {
    if exists j: nat, k: nat :: ResponseShape(line, i, j, k) && name == line[i + 4..j] {
      var j: nat, k: nat :| ResponseShape(line, i, j, k) && name == line[i + 4..j];
      var j' := SpanEnd(line, i + 4, IsWordChar);
      assert !IsWordChar(line[j]);
      assert j' == j;
      var k' := SpanEnd(line, j + 1, IsIdChar);
      assert !IsIdChar(line[k]);
      assert k' == k;
    }
    if MatchResponseAt(line, i) == Some(name) {
      var j := SpanEnd(line, i + 4, IsWordChar);
      var k := SpanEnd(line, j + 1, IsIdChar);
      assert ResponseShape(line, i, j, k);
    }
  }

  /** The search loop of `re.search`, for any matcher `m`: the result at the
      leftmost position from `from` to `last` where `m` matches. */
  function Leftmost<T>(m: nat -> Option<T>, from: nat, last: nat): (r: Option<T>)
    requires from <= last
    ensures r.None? <==> forall p | from <= p <= last :: m(p).None?
    ensures r.Some? ==> exists p | from <= p <= last :: m(p) == r && forall q | from <= q < p :: m(q).None?
    decreases last - from
  {
    if m(from).Some? then m(from)
    else if from == last then None
    else Leftmost(m, from + 1, last)
  }

  /** `re.search` for the response pattern from position `from` on: the
      leftmost match's group 1. */
  function SearchResponse(line: string, from: nat): (r: Option<string>)
    requires from <= |line|
    ensures r.Some? ==> IsWord(r.value)
    ensures r.None? <==> forall p | from <= p <= |line| :: MatchResponseAt(line, p).None?
    ensures r.Some? ==> exists p | from <= p <= |line| ::
              MatchResponseAt(line, p) == r && forall q | from <= q < p :: MatchResponseAt(line, q).None?
  {
    var m := (p: nat) => MatchResponseAt(line, p);
    assert forall p: nat :: m(p) == MatchResponseAt(line, p);
    Leftmost(m, from, |line|)
  }

  const RequestPrefix: string := "[UnityCrossThreadLogger]==>"

  /** A character `.` matches: anything but a line break. */
  predicate IsLineChar(c: char) {
    c != '\n'
  }

  /** `\[UnityCrossThreadLogger\]==> (\w+) (.*)` matched at position `i`:
      the event name and what follows the next space up to the first line
      break or the end of the line. */
  function MatchRequestAt(line: string, i: nat): (r: Option<(string, string)>)
    ensures r.Some? ==> IsWord(r.value.0)
  {
    var n := |RequestPrefix| + 1;
    if i + n <= |line| && line[i..i + n] == RequestPrefix + " " then
      var j := SpanEnd(line, i + n, IsWordChar);
      if i + n < j < |line| && line[j] == ' ' then
        Some((line[i + n..j], line[j + 1..SpanEnd(line, j + 1, IsLineChar)]))
      else None
    else None
  }

  /** `\[UnityCrossThreadLogger\]==> (\w+) (.*)` matches at `i`, its word
      ending at `j` and its greedy `.*` at `e` (the regex, stated
      declaratively). */
  predicate RequestShape(line: string, i: nat, j: nat, e: nat) {
    var n := |RequestPrefix| + 1;
    && i + n < j < |line|
    && j + 1 <= e <= |line|
    && line[i..i + n] == RequestPrefix + " "
    && (forall x | i + n <= x < j :: IsWordChar(line[x]))
    && line[j] == ' '
    && (forall x | j + 1 <= x < e :: IsLineChar(line[x]))
    && (e < |line| ==> !IsLineChar(line[e]))
  }

  /** The matcher and the regex agree: a match at `i` capturing `name` and
      `rest` exists exactly when the matcher returns them. `\w+` cannot stop
      early, since the space after it is not a word character. */
  lemma MatchRequestAtIsRegex(line: string, i: nat, name: string, rest: string)
    ensures MatchRequestAt(line, i) == Some((name, rest)) <==>
              exists j: nat, e: nat :: RequestShape(line, i, j, e) && name == line[i + 28..j] && rest == line[j + 1..e]
  {
    if exists j: nat, e: nat :: RequestShape(line, i, j, e) && name == line[i + 28..j] && rest == line[j + 1..e] {
      var j: nat, e: nat :| RequestShape(line, i, j, e) && name == line[i + 28..j] && rest == line[j + 1..e];
      RequestShapeIsMatch(line, i, j, e);
    }
    if MatchRequestAt(line, i) == Some((name, rest)) {
      var j := SpanEnd(line, i + 28, IsWordChar);
      var e := SpanEnd(line, j + 1, IsLineChar);
      assert RequestShape(line, i, j, e);
    }
  }

  /** A match of the pattern at `i` is found by the matcher: both runs are
      the longest ones, since each stops at a character outside its class. */
  lemma RequestShapeIsMatch(line: string, i: nat, j: nat, e: nat)
    requires RequestShape(line, i, j, e)
    ensures MatchRequestAt(line, i) == Some((line[i + 28..j], line[j + 1..e]))
  {
    assert !IsWordChar(line[j]);
    assert SpanEnd(line, i + 28, IsWordChar) == j;
    assert SpanEnd(line, j + 1, IsLineChar) == e;
  }

  /** `re.search` for the request pattern from position `from` on: the
      leftmost match's groups. */
  function SearchRequest(line: string, from: nat): (r: Option<(string, string)>)
    requires from <= |line|
    ensures r.Some? ==> IsWord(r.value.0)
    ensures r.None? <==> forall p | from <= p <= |line| :: MatchRequestAt(line, p).None?
    ensures r.Some? ==> exists p | from <= p <= |line| ::
              MatchRequestAt(line, p) == r && forall q | from <= q < p :: MatchRequestAt(line, q).None?
  {
    var m := (p: nat) => MatchRequestAt(line, p);
    assert forall p: nat :: m(p) == MatchRequestAt(line, p);
    Leftmost(m, from, |line|)
  }

  // ---------------------------------------------------------------------
  // Courses

  /** One entry of the deck summary's "Attributes" list. */
  datatype Attribute = Attribute(name: string, value: string)

  /** A course of the client's "Courses" list, reduced to the fields the
      filters read: "InternalEventName", "CardPool" and the deck summary's
      "Attributes". */
  datatype Course = Course(internalEventName: string, cardPool: seq<int>, deckAttributes: seq<Attribute>)

  /** The test `get_sealed_courses` applies to each course. */
  predicate IsSealedCourse(c: Course) {
    StartsWith(c.internalEventName, "Sealed") && |c.cardPool| > 0
  }

  /** `get_sealed_courses`: the courses whose event name starts with
      "Sealed" and whose card pool is non-empty. */
  function SealedCourses(courses: seq<Course>): (r: seq<Course>)
    ensures forall c :: c in r <==> c in courses && IsSealedCourse(c)
    ensures |r| <= |courses|
  {
    if |courses| == 0 then []
    else
      var init := courses[..|courses| - 1];
      var last := courses[|courses| - 1];
      assert courses == init + [last];
      SealedCourses(init) + (if IsSealedCourse(last) then [last] else [])
  }

  /** The filter keeps order: filtering a concatenation filters each part and
      concatenates the results. */
  lemma {:induction false} SealedCoursesConcat(a: seq<Course>, b: seq<Course>)
    ensures SealedCourses(a + b) == SealedCourses(a) + SealedCourses(b)
    decreases |b|
  {
    if |b| == 0 {
      assert a + b == a;
    } else {
      var b' := b[..|b| - 1];
      assert (a + b)[..|a + b| - 1] == a + b';
      assert (a + b)[|a + b| - 1] == b[|b| - 1];
      SealedCoursesConcat(a, b');
    }
  }

  // ---------------------------------------------------------------------
  // Lines, events and one step of the parser

  /** How an idle parser reads a line; the tests are tried in this order. */
  datatype LineKind = VersionLine | DetailedLogsLine | ResponseLine | RequestLine | OtherLine

  function Classify(line: string): (k: LineKind)
    ensures k == OtherLine <==>
              && (!Contains(line, "Version:") || CountChar(line, '/') != 2)
              && !Contains(line, "DETAILED LOGS")
              && !StartsWith(line, "<==")
              && !StartsWith(line, RequestPrefix)
  {
    if Contains(line, "Version:") && CountChar(line, '/') == 2 then VersionLine
    else if Contains(line, "DETAILED LOGS") then DetailedLogsLine
    else if StartsWith(line, "<==") then ResponseLine
    else if StartsWith(line, RequestPrefix) then RequestLine
    else OtherLine
  }

  /** What an end handler receives: the decoded payload line, or the raw
      line when it is not JSON. */
  datatype Payload = Parsed(doc: Json) | RawLine(text: string)

  /** Observations the parser logs and handler calls it makes. */
  datatype Event =
    | GameVersion(version: string)
    | DetailedLogStatus(status: string)
    | Start(name: string, request: Json)
    | End(name: string, payload: Payload)

  /** The exceptions that escape `follow_player_log`. */
  datatype LogError =
    | MissingStatus          // "DETAILED LOGS" line without ':' (IndexError)
    | MalformedOuterJson     // start line's JSON does not decode
    | MissingRequest         // decoded start JSON is not an object with "request"
    | RequestNotText         // "request" is not a string (TypeError)
    | MalformedRequestJson   // "request" does not decode

  /** The registered event names of the two handler tables. */
  datatype Handlers = Handlers(startNames: set<string>, endNames: set<string>)

  /** The payload handed to an end handler for `line`. */
  function DecodePayload(line: string, parse: Parser): (p: Payload)
    ensures p.Parsed? <==> parse(line).Some?
    ensures p.Parsed? ==> Some(p.doc) == parse(line)
    ensures p.RawLine? ==> p.text == line
  {
    match parse(line)
    case Some(doc) => Parsed(doc)
    case None => RawLine(line)
  }

  /** The start-line handling after the regex matched: two nested decodes,
      then a dispatch when `name` has a start handler. */
  function StartLine(name: string, outer: string, h: Handlers, parse: Parser)
    : (r: Result<seq<Event>, LogError>)
    ensures r.Success? <==>
              && parse(outer).Some?
              && Member(parse(outer).value, "request").Some?
              && Member(parse(outer).value, "request").value.JString?
              && parse(Member(parse(outer).value, "request").value.text).Some?
    ensures r.Success? ==>
              r.value == if name in h.startNames
                         then [Start(name, parse(Member(parse(outer).value, "request").value.text).value)]
                         else []
  {
    match parse(outer)
    case None => Failure(MalformedOuterJson)
    case Some(doc) =>
      match Member(doc, "request")
      case None => Failure(MissingRequest)
      case Some(request) =>
        if !request.JString? then Failure(RequestNotText)
        else
          match parse(request.text)
          case None => Failure(MalformedRequestJson)
          case Some(inner) => Success(if name in h.startNames then [Start(name, inner)] else [])
  }

  /** How an idle parser handles a start line. */
  function RequestStep(line: string, h: Handlers, parse: Parser): (r: Result<(string, seq<Event>), LogError>)
    ensures r.Success? ==> r.value.0 == ""
    ensures SearchRequest(line, 0).None? ==> r == Success(("", []))
    ensures SearchRequest(line, 0).Some? ==>
              var start := StartLine(SearchRequest(line, 0).value.0, SearchRequest(line, 0).value.1, h, parse);
              && (r.Success? <==> start.Success?)
              && (r.Success? ==> r.value.1 == start.value)
  {
    var found := SearchRequest(line, 0);
    if found.None? then Success(("", []))
    else
      var start := StartLine(found.value.0, found.value.1, h, parse);
      if start.Failure? then Failure(start.error) else Success(("", start.value))
  }

  /** How an idle parser handles a line, by the first test the line passes. */
  function IdleLine(line: string, h: Handlers, parse: Parser): (r: Result<(string, seq<Event>), LogError>)
    ensures r.Failure? ==> Classify(line) == DetailedLogsLine || Classify(line) == RequestLine
    ensures r.Success? && r.value.0 != "" ==>
              Classify(line) == ResponseLine && SearchResponse(line, 0) == Some(r.value.0)
  {
    match Classify(line)
    case VersionLine =>
      var parts := Split(line, '/');
      Success(("", [GameVersion(Strip(parts[1]))]))
    case DetailedLogsLine =>
      var parts := Split(line, ':');
      if |parts| < 2 then Failure(MissingStatus)
      else Success(("", [DetailedLogStatus(Strip(parts[1]))]))
    case ResponseLine =>
      (match SearchResponse(line, 0)
       case Some(name) => Success((name, []))
       case None => Success(("", [])))
    case RequestLine => RequestStep(line, h, parse)
    case OtherLine => Success(("", []))
  }

  /** One iteration of the loop in `follow_player_log`: the new value of
      `next_line_event` and what the line produced. */
  function Step(pending: string, line: string, h: Handlers, parse: Parser)
    : (r: Result<(string, seq<Event>), LogError>)
    ensures r.Failure? ==> pending == ""
    ensures r.Success? && r.value.0 != "" ==> pending == "" && Classify(line) == ResponseLine && IsWord(r.value.0)
  {
    if pending != "" then
      Success(("", if pending in h.endNames then [End(pending, DecodePayload(line, parse))] else []))
    else IdleLine(line, h, parse)
  }

  /** The loop after one more line: an escaped exception stays escaped,
      otherwise the line is stepped and its events appended to the trace. */
  function Extend(sofar: Result<(string, seq<Event>), LogError>, line: string, h: Handlers, parse: Parser)
    : Result<(string, seq<Event>), LogError>
  {
    if sofar.Failure? then sofar
    else
      var step := Step(sofar.value.0, line, h, parse);
      if step.Failure? then Failure(step.error)
      else Success((step.value.0, sofar.value.1 + step.value.1))
  }

  /** `follow_player_log` over the lines read so far: the final state and the
      trace, or the exception that ended the loop. The state is always idle
      or a non-empty event name (the idle value "" is never stored as a
      pending name), and it is pending only right after a response line. */
  function Run(lines: seq<string>, h: Handlers, parse: Parser): (r: Result<(string, seq<Event>), LogError>)
    ensures r.Success? ==> r.value.0 == "" || IsWord(r.value.0)
    ensures r.Success? && r.value.0 != "" ==> |lines| > 0 && Classify(lines[|lines| - 1]) == ResponseLine
  {
    if |lines| == 0 then Success(("", []))
    else Extend(Run(lines[..|lines| - 1], h, parse), lines[|lines| - 1], h, parse)
  }

  // ---------------------------------------------------------------------
  // Properties of a single step

  /** While an event is pending, the next line is its payload whatever it
      looks like: it is never classified, the step cannot fail, the parser
      returns to idle, and the end handler registered under the name is
      called exactly once (with the decoded line, or the raw line when it
      does not decode); an unregistered name calls nothing. */
  lemma PendingLineIsPayload(pending: string, line: string, h: Handlers, parse: Parser)
    requires pending != ""
    ensures Step(pending, line, h, parse).Success?
    ensures Step(pending, line, h, parse).value.0 == ""
    ensures var events := Step(pending, line, h, parse).value.1;
              && |events| == (if pending in h.endNames then 1 else 0)
              && forall e | e in events :: e == End(pending, DecodePayload(line, parse))
  {
  }

  /** An idle parser leaves the state idle on every line except a response
      line the response regex matches, which makes the state the matched,
      non-empty event name and emits nothing. A response line never fails
      and never emits anything, whether or not the regex matches it. */
  lemma IdleStep(line: string, h: Handlers, parse: Parser)
    ensures Step("", line, h, parse).Success? ==>
              var (next, events) := Step("", line, h, parse).value;
              && (next != "" <==> Classify(line) == ResponseLine && SearchResponse(line, 0).Some?)
              && (next != "" ==> next == SearchResponse(line, 0).value && IsWord(next) && events == [])
    ensures Classify(line) == ResponseLine ==>
              Step("", line, h, parse)
                == Success((if SearchResponse(line, 0).Some? then SearchResponse(line, 0).value else "", []))
  {
  }

  /** A line none of the four tests accepts changes nothing. */
  lemma OtherLineIgnored(line: string, h: Handlers, parse: Parser)
    requires !Contains(line, "Version:") || CountChar(line, '/') != 2
    requires !Contains(line, "DETAILED LOGS")
    requires !StartsWith(line, "<==") && !StartsWith(line, RequestPrefix)
    ensures Step("", line, h, parse) == Success(("", []))
  {
  }

  /** The tests are tried in order: a line is of a kind exactly when it
      passes that kind's test and fails every earlier one. Only response
      lines, and only those that match the response regex, can start a
      pending event. */
  lemma ClassificationPriority(line: string, h: Handlers, parse: Parser)
    ensures var version := Contains(line, "Version:") && CountChar(line, '/') == 2;
            var status := Contains(line, "DETAILED LOGS");
            && (Classify(line) == VersionLine <==> version)
            && (Classify(line) == DetailedLogsLine <==> !version && status)
            && (Classify(line) == ResponseLine <==> !version && !status && StartsWith(line, "<=="))
            && (Classify(line) == RequestLine <==>
                  !version && !status && !StartsWith(line, "<==") && StartsWith(line, RequestPrefix))
    ensures Classify(line) != ResponseLine && Step("", line, h, parse).Success? ==>
              Step("", line, h, parse).value.0 == ""
  {
  }

  /** A start line never changes the state; when it decodes it calls the
      start handler registered under the matched name once, with the decoded
      "request" string of the matched JSON, and calls nothing for an
      unregistered name. */
  lemma StartLineKeepsIdle(line: string, h: Handlers, parse: Parser)
    requires Classify(line) == RequestLine
    ensures Step("", line, h, parse).Success? ==>
              var (next, events) := Step("", line, h, parse).value;
              && next == ""
              && (events != [] <==> SearchRequest(line, 0).Some? && SearchRequest(line, 0).value.0 in h.startNames)
              && (forall e | e in events :: e.Start? && e.name in h.startNames)
              && (SearchRequest(line, 0).Some? ==>
                    var (name, outer) := SearchRequest(line, 0).value;
                    events == if name in h.startNames
                              then [Start(name, parse(Member(parse(outer).value, "request").value.text).value)]
                              else [])
  {
  }

  /** Decoding failures on a matched start line are not caught: a start
      line whose outer JSON does not decode, lacks "request", or whose
      request does not decode ends the loop with that error, whether or not
      a handler is registered. */
  lemma StartLineErrorsEscape(line: string, h: Handlers, parse: Parser)
    requires Classify(line) == RequestLine
    ensures SearchRequest(line, 0).Some? ==>
              var outer := SearchRequest(line, 0).value.1;
              parse(outer).None? ==> Step("", line, h, parse) == Failure(MalformedOuterJson)
    ensures SearchRequest(line, 0).Some? ==>
              var outer := SearchRequest(line, 0).value.1;
              parse(outer).Some? && Member(parse(outer).value, "request").None? ==>
                Step("", line, h, parse) == Failure(MissingRequest)
    ensures SearchRequest(line, 0).Some? ==>
              var outer := SearchRequest(line, 0).value.1;
              && parse(outer).Some?
              && Member(parse(outer).value, "request").Some?
              && Member(parse(outer).value, "request").value.JString?
              && parse(Member(parse(outer).value, "request").value.text).None?
              ==> Step("", line, h, parse) == Failure(MalformedRequestJson)
  {
  }

  /** A "DETAILED LOGS" line reports the stripped text between its first
      ':' and the next ':' (or the end of the line) and, lacking a ':',
      raises out of the loop (the index 1 of a one-piece split). */
  lemma DetailedLogsNeedsColon(line: string, h: Handlers, parse: Parser)
    requires Classify(line) == DetailedLogsLine
    ensures Step("", line, h, parse).Failure? <==> ':' !in line
    ensures ':' !in line ==> Step("", line, h, parse) == Failure(MissingStatus)
    ensures ':' in line ==>
              Step("", line, h, parse) == Success(("", [DetailedLogStatus(Strip(Split(line, ':')[1]))]))
  {
    CountCharZero(line, ':');
  }

  /** The version line reports the middle '/'-separated segment, stripped. */
  lemma VersionIsMiddleSegment(line: string, before: string, version: string, after: string,
                               h: Handlers, parse: Parser)
    requires line == before + "/" + version + "/" + after
    requires '/' !in before && '/' !in version && '/' !in after
    requires Contains(line, "Version:")
    ensures Step("", line, h, parse) == Success(("", [GameVersion(Strip(version))]))
  {
    var parts := [before, version, after];
    assert parts[1..] == [version, after] && parts[1..][1..] == [after];
    assert Join([after], '/') == after;
    assert Join([version, after], '/') == version + "/" + after;
    assert Join(parts, '/') == line;
    SplitJoin(parts, '/');
  }

  // ---------------------------------------------------------------------
  // Properties of a run

  /** Handlers are only ever called under registered names. */
  lemma {:induction false} RunDispatchesRegistered(lines: seq<string>, h: Handlers, parse: Parser)
    ensures Run(lines, h, parse).Success? ==>
              forall e | e in Run(lines, h, parse).value.1 ::
                (e.Start? ==> e.name in h.startNames) && (e.End? ==> e.name in h.endNames)
    decreases |lines|
  {
    if |lines| > 0 {
      RunDispatchesRegistered(lines[..|lines| - 1], h, parse);
      var prev := Run(lines[..|lines| - 1], h, parse);
      if prev.Success? {
        var line := lines[|lines| - 1];
        if prev.value.0 != "" {
          PendingLineIsPayload(prev.value.0, line, h, parse);
        } else if Classify(line) == RequestLine {
          StartLineKeepsIdle(line, h, parse);
        }
      }
    }
  }

  /** An escaped exception ends the loop: no later line is processed. */
  lemma {:induction false} RunFailureIsFinal(lines: seq<string>, more: seq<string>, h: Handlers, parse: Parser)
    requires Run(lines, h, parse).Failure?
    ensures Run(lines + more, h, parse) == Run(lines, h, parse)
    decreases |more|
  {
    if |more| == 0 {
      assert lines + more == lines;
    } else {
      var init := more[..|more| - 1];
      RunFailureIsFinal(lines, init, h, parse);
      assert (lines + more)[..|lines + more| - 1] == lines + init;
    }
  }

  /** The response line the client writes for event `name` with
      correlation id `id`. */
  function ResponseLineFor(name: string, id: string): string {
    ResponseArrow + name + "(" + id + ")"
  }

  /** The regex recovers the event name from a response line whose id is
      drawn from `[a-f0-9-]`. */
  lemma ResponseLineMatches(name: string, id: string)
    requires IsWord(name)
    requires |id| > 0 && forall i | 0 <= i < |id| :: IsIdChar(id[i])
    ensures SearchResponse(ResponseLineFor(name, id), 0) == Some(name)
  {
    var line := ResponseLineFor(name, id);
    ResponseLineShape(name, id);
    MatchResponseAtIsRegex(line, 0, name);
    SearchResponseHere(line, 0);
  }

  /** The client's response line has the shape of the pattern at position
      0, with the name as group 1. */
  lemma ResponseLineShape(name: string, id: string)
    requires IsWord(name)
    requires |id| > 0 && forall i | 0 <= i < |id| :: IsIdChar(id[i])
    ensures var j := 4 + |name|;
            ResponseShape(ResponseLineFor(name, id), 0, j, j + 1 + |id|)
              && ResponseLineFor(name, id)[4..j] == name
  {
    var line := ResponseLineFor(name, id);
    var j := 4 + |name|;
    var k := j + 1 + |id|;
    assert line[..4] == ResponseArrow;
    assert forall x | 4 <= x < j :: line[x] == name[x - 4];
    assert forall x | j + 1 <= x < k :: line[x] == id[x - j - 1];
    assert line[j] == '(' && line[k] == ')';
    assert line[4..j] == name;
  }

  /** A match at the first position searched is the one `re.search` finds. */
  lemma SearchResponseHere(line: string, from: nat)
    requires from <= |line| && MatchResponseAt(line, from).Some?
    ensures SearchResponse(line, from) == MatchResponseAt(line, from)
  {
    var r := SearchResponse(line, from);
    var p :| from <= p <= |line| && MatchResponseAt(line, p) == r
             && forall q | from <= q < p :: MatchResponseAt(line, q).None?;
    assert p == from;
  }

  /** An idle parser classifies such a line as a response line: it starts
      with "<==", and holds neither ':' nor the space "DETAILED LOGS" needs
      after its eighth character. */
  lemma ResponseLineClassified(name: string, id: string)
    requires IsWord(name)
    requires forall i | 0 <= i < |id| :: IsIdChar(id[i])
    ensures Classify(ResponseLineFor(name, id)) == ResponseLine
  {
    var line := ResponseLineFor(name, id);
    var j := 4 + |name|;
    assert StartsWith(line, "<==");
    forall x | 0 <= x < |line|
      ensures line[x] != ':'
      ensures 4 <= x ==> line[x] != ' '
    {
      if x < 4 {
        assert line[x] == ResponseArrow[x];
      } else if x < j {
        assert line[x] == name[x - 4];
      } else if j < x < |line| - 1 {
        assert line[x] == id[x - j - 1];
      }
    }
    AbsentCharNotContained(line, "Version:", 7);
    // The only space of the line is at index 3, where "DETAILED LOGS" cannot put its space.
    forall i | 0 <= i <= |line| - 13 ensures !OccursAt(line, "DETAILED LOGS", i) {
      assert line[i..i + 13][8] == line[i + 8] != ' ';
    }
  }

  /** Both together: the name comes back, and the line reaches the
      response branch. */
  lemma ResponseLineRecoversName(name: string, id: string)
    requires IsWord(name)
    requires |id| > 0 && forall i | 0 <= i < |id| :: IsIdChar(id[i])
    ensures Classify(ResponseLineFor(name, id)) == ResponseLine
    ensures SearchResponse(ResponseLineFor(name, id), 0) == Some(name)
  {
    ResponseLineMatches(name, id);
    ResponseLineClassified(name, id);
  }

  /** A response line the regex accepts, followed by any payload line: the
      end handler registered under the name receives the decoded payload,
      or the raw line when it does not decode, exactly once, and the parser
      is idle again. */
  lemma ResponseThenPayload(name: string, id: string, payload: string, h: Handlers, parse: Parser)
    requires IsWord(name) && name in h.endNames
    requires |id| > 0 && forall i | 0 <= i < |id| :: IsIdChar(id[i])
    ensures Run([ResponseLineFor(name, id), payload], h, parse)
              == Success(("", [End(name, DecodePayload(payload, parse))]))
  {
    var line := ResponseLineFor(name, id);
    ResponseLineRecoversName(name, id);
    assert Step("", line, h, parse) == Success((name, []));
    RunFirstLine(line, h, parse);
    var mid := Run([line], h, parse);
    assert mid.Success? && mid.value.0 == name && mid.value.1 == [];
    RunSecondLine(line, payload, h, parse);
    var fin := Run([line, payload], h, parse);
    assert Step(name, payload, h, parse) == Success(("", [End(name, DecodePayload(payload, parse))]));
    assert fin.Success? && fin.value.0 == "" && fin.value.1 == [End(name, DecodePayload(payload, parse))];
  }

  /** A run over one line is one step from the idle state. */
  lemma RunFirstLine(line: string, h: Handlers, parse: Parser)
    ensures Run([line], h, parse) == Extend(Success(("", [])), line, h, parse)
  {
    assert [line][..0] == [];
  }

  /** A run over two lines is the run over the first, then one step. */
  lemma RunSecondLine(first: string, second: string, h: Handlers, parse: Parser)
    ensures Run([first, second], h, parse) == Extend(Run([first], h, parse), second, h, parse)
  {
    assert [first, second][..1] == [first];
  }

  /** A correlation id with a character outside `[a-f0-9-]` (such as the
      'x' of "x1"), and holding neither '<' nor ')', defeats the response
      regex: the line leaves the parser idle, so the following line is
      classified instead of dispatched. */
  lemma NonHexIdStaysIdle(name: string, id: string, h: Handlers, parse: Parser)
    requires IsWord(name)
    requires '<' !in id && ')' !in id
    requires exists i | 0 <= i < |id| :: !IsIdChar(id[i])
    ensures SearchResponse(ResponseLineFor(name, id), 0).None?
    ensures Step("", ResponseLineFor(name, id), h, parse).Success? ==>
              Step("", ResponseLineFor(name, id), h, parse).value.0 == ""
  {
    var line := ResponseLineFor(name, id);
    var j := 4 + |name|;
    assert forall x | 4 <= x < j :: line[x] == name[x - 4];
    assert forall x | j + 1 <= x < |line| - 1 :: line[x] == id[x - j - 1];
    forall x | 1 <= x < |line| ensures line[x] != '<' {
      if x < 4 {
        assert line[x] == ResponseArrow[x];
      }
    }
    forall p | 0 <= p <= |line| ensures MatchResponseAt(line, p).None? {
      if p == 0 {
        var w := SpanEnd(line, 4, IsWordChar);
        assert w == j by {
          assert !IsWordChar(line[j]);
        }
        var k := SpanEnd(line, j + 1, IsIdChar);
        var i :| 0 <= i < |id| && !IsIdChar(id[i]);
        assert line[j + 1 + i] == id[i];
        assert k <= j + 1 + i;
        assert line[k] == id[k - j - 1];
        assert line[k] != ')';
      } else if p + 4 <= |line| {
        assert line[p..p + 4][0] == line[p];
      }
    }
  }
}

=== FILE: seventeen_lands.dfy ===
/** Ranking enrichment and the record helpers of
    mtga_helper/seventeen_lands.py: keying provider records by card id,
    colour backfill for colourless lands, percentile scores, the type tests
    and the key histogram. The provider query, the fitted distribution's CDF
    and `land_string_to_colors` are parameters. */
module SeventeenLands {
  import opened Wrappers
  import opened Text
  import opened Cards
  import opened Grading

  /** Some token of the type line contains `typeName` as a substring. */
  function TypeLineContains(types: seq<string>, typeName: string): (r: bool)
    ensures r <==> exists i | 0 <= i < |types| :: Contains(types[i], typeName)
  {
    if |types| == 0 then false
    else if Contains(types[0], typeName) then true
    else
      var r := TypeLineContains(types[1..], typeName);
      assert forall i | 1 <= i < |types| :: types[i] == types[1..][i - 1];
      r
  }

  /** `has_card_type`: some type token of the record contains `typeName`;
      never true of an empty type line. */
  function HasCardType(card: Card, typeName: string): (r: bool)
    ensures r <==> exists i | 0 <= i < |card.types| :: Contains(card.types[i], typeName)
    ensures |card.types| == 0 ==> !r
  {
    TypeLineContains(card.types, typeName)
  }

  /** The number of records whose type line mentions "Creature". */
  function CreatureCount(cards: seq<Card>): (n: nat)
    ensures n <= |cards|
  {
    if |cards| == 0 then 0
    else CreatureCount(cards[..|cards| - 1]) + (if HasCardType(cards[|cards| - 1], "Creature") then 1 else 0)
  }

  /** `count_creatures`: splits the records into creatures and the rest. */
  method CountCreatures(cards: seq<Card>) returns (creatures: nat, others: nat)
    ensures creatures + others == |cards|
    ensures creatures == CreatureCount(cards)
  {
    creatures, others := 0, 0;
    for i := 0 to |cards|
      invariant creatures + others == i
      invariant creatures == CreatureCount(cards[..i])
    {
      assert cards[..i + 1][..i] == cards[..i];
      if HasCardType(cards[i], "Creature") {
        creatures := creatures + 1;
      } else {
        others := others + 1;
      }
    }
    assert cards[..|cards|] == cards;
  }

  /** The identifiers occurring in the records. */
  function Ids(cards: seq<Card>): set<int> {
    set i | 0 <= i < |cards| :: cards[i].mtgaId
  }

  /** `rankings_by_arena_id`: every record stored under its id, a later
      record overwriting an earlier one with the same id. */
  function ByArenaId(cards: seq<Card>): (r: map<int, Card>)
    ensures r.Keys == Ids(cards)
    ensures forall id | id in r :: r[id].mtgaId == id
  {
    if |cards| == 0 then map[]
    else
      var init := cards[..|cards| - 1];
      var r := ByArenaId(init)[cards[|cards| - 1].mtgaId := cards[|cards| - 1]];
      assert forall i | 0 <= i < |cards| - 1 :: cards[i] == init[i];
      r
  }

  /** Last write wins: a record not followed by another with its id is the
      one stored under that id. */
  lemma {:induction false} ByArenaIdLastWins(cards: seq<Card>, i: nat)
    requires i < |cards|
    requires forall j | i < j < |cards| :: cards[j].mtgaId != cards[i].mtgaId
    ensures ByArenaId(cards)[cards[i].mtgaId] == cards[i]
    decreases |cards|
  {
    if i < |cards| - 1 {
      var init := cards[..|cards| - 1];
      assert init[i] == cards[i];
      ByArenaIdLastWins(init, i);
    }
  }

  /** The inner loop of the land backfill: each type token overwrites the
      colour with its land colours, so only the last token's survive. */
  function OverwriteColors(types: seq<string>, color: string, landColors: string -> string): (r: string)
    ensures |types| == 0 ==> r == color
    ensures |types| > 0 ==> r == landColors(types[|types| - 1])
  {
    if |types| == 0 then color
    else OverwriteColors(types[1..], landColors(types[0]), landColors)
  }

  /** An enriched ranking: the record (colour possibly backfilled) and its
      `ever_drawn_score`. */
  datatype Ranking = Ranking(card: Card, everDrawnScore: Option<real>)

  /** The per-record body of `get_graded_rankings`. `cdf(samples, x)` is the
      cumulative probability of `x` under the normal distribution fitted to
      `samples`. */
  function EnrichCard(card: Card, samples: seq<real>, cdf: (seq<real>, real) -> real,
                      landColors: string -> string): (r: Ranking)
    ensures r.card == card.(color := r.card.color)
    ensures card.color == "" && HasCardType(card, "Land") ==>
              r.card.color == landColors(card.types[|card.types| - 1])
    ensures card.color != "" || !HasCardType(card, "Land") ==> r.card.color == card.color
    ensures r.everDrawnScore.Some? <==> Truthy(card.everDrawnWinRate)
    ensures r.everDrawnScore.Some? ==> r.everDrawnScore.value == cdf(samples, card.everDrawnWinRate.value) * 100.0
  {
    var color :=
      if card.color == "" && HasCardType(card, "Land") then OverwriteColors(card.types, card.color, landColors)
      else card.color;
    var score :=
      if Truthy(card.everDrawnWinRate) then Some(cdf(samples, card.everDrawnWinRate.value) * 100.0)
      else None;
    Ranking(card.(color := color), score)
  }

  /** `get_graded_rankings` on the provider's records: one enriched ranking
      per distinct id, every score measured against the ever-drawn win rates
      of the whole batch (overwritten duplicates included). */
  function GradedRankings(cards: seq<Card>, cdf: (seq<real>, real) -> real,
                          landColors: string -> string): (r: map<int, Ranking>)
    ensures r.Keys == Ids(cards)
    ensures forall id | id in r ::
              r[id] == EnrichCard(ByArenaId(cards)[id], Samples(cards, EverDrawnWinRate), cdf, landColors)
  {
    var byId := ByArenaId(cards);
    var samples := Samples(cards, EverDrawnWinRate);
    map id | id in byId :: EnrichCard(byId[id], samples, cdf, landColors)
  }

  /** A batch in which no record has a truthy ever-drawn win rate yields no
      score at all, and samples nothing. */
  lemma NoRatesNoScores(cards: seq<Card>, cdf: (seq<real>, real) -> real, landColors: string -> string)
    requires forall i | 0 <= i < |cards| :: !Truthy(cards[i].everDrawnWinRate)
    ensures Samples(cards, EverDrawnWinRate) == []
    ensures forall id | id in GradedRankings(cards, cdf, landColors) ::
              GradedRankings(cards, cdf, landColors)[id].everDrawnScore == None
  {
    var byId := ByArenaId(cards);
    forall id | id in byId
      ensures !Truthy(byId[id].everDrawnWinRate)
    {
      var i :| 0 <= i < |cards| && cards[i].mtgaId == id;
      var j := LastWithId(cards, id, i);
      ByArenaIdLastWins(cards, j);
    }
  }

  /** The last position holding id `id`, given that position `i` holds it. */
  function LastWithId(cards: seq<Card>, id: int, i: nat): (j: nat)
    requires i < |cards| && cards[i].mtgaId == id
    ensures i <= j < |cards| && cards[j].mtgaId == id
    ensures forall k | j < k < |cards| :: cards[k].mtgaId != id
    decreases |cards| - i
  {
    if exists k | i < k < |cards| :: cards[k].mtgaId == id then
      var k :| i < k < |cards| && cards[k].mtgaId == id;
      LastWithId(cards, id, k)
    else i
  }

  /** The metrics the histogram tracks, in the order the source lists them. */
  const TrackedMetrics: seq<Metric> := [EverDrawnWinRate, EverDrawnGameCount, DrawnWinRate, WinRate]

  /** Where metric `m` sits in `TrackedMetrics`. */
  function TrackedSlot(m: Metric): nat {
    match m
    case EverDrawnWinRate => 0
    case EverDrawnGameCount => 1
    case DrawnWinRate => 2
    case WinRate => 3
  }

  /** The keys of a key histogram: the four metric keys and "all". */
  function HistogramKeys(): set<string> {
    {"ever_drawn_win_rate", "ever_drawn_game_count", "drawn_win_rate", "win_rate", "all"}
  }

  /** Different metrics are stored under different keys, none of them "all". */
  lemma MetricKeysDistinct()
    ensures forall m: Metric :: m == TrackedMetrics[TrackedSlot(m)] && m.Key() != "all"
    ensures forall m: Metric, n: Metric :: m.Key() == n.Key() ==> m == n
    ensures (set m: Metric | m in TrackedMetrics :: m.Key()) == HistogramKeys() - {"all"}
  {
    assert forall key | key in HistogramKeys() - {"all"} :: exists m: Metric :: m.Key() == key by {
      assert EverDrawnWinRate.Key() == "ever_drawn_win_rate";
      assert EverDrawnGameCount.Key() == "ever_drawn_game_count";
      assert DrawnWinRate.Key() == "drawn_win_rate";
      assert WinRate.Key() == "win_rate";
    }
  }

  /** The histogram before any record is counted: every metric key at 0. */
  method EmptyHistogram() returns (histogram: map<string, nat>)
    ensures histogram.Keys == HistogramKeys() - {"all"}
    ensures forall m: Metric :: histogram[m.Key()] == 0
  {
    MetricKeysDistinct();
    histogram := map[];
    for k := 0 to |TrackedMetrics|
      invariant histogram.Keys == set j | 0 <= j < k :: TrackedMetrics[j].Key()
      invariant forall j | 0 <= j < k :: histogram[TrackedMetrics[j].Key()] == 0
    {
      histogram := histogram[TrackedMetrics[k].Key() := 0];
    }
    assert (set j | 0 <= j < |TrackedMetrics| :: TrackedMetrics[j].Key())
        == (set m: Metric | m in TrackedMetrics :: m.Key());
  }

  /** The inner loop over the keys for one record: each metric key's count
      goes up by one when the record's metric is truthy. */
  method TallyCard(histogram: map<string, nat>, card: Card) returns (r: map<string, nat>)
    requires forall m: Metric :: m.Key() in histogram
    ensures r.Keys == histogram.Keys
    ensures forall m: Metric :: r[m.Key()] == histogram[m.Key()] + (if Truthy(card.Get(m)) then 1 else 0)
  {
    MetricKeysDistinct();
    r := histogram;
    for k := 0 to |TrackedMetrics|
      invariant r.Keys == histogram.Keys
      invariant forall m: Metric :: TrackedSlot(m) < k ==>
                  r[m.Key()] == histogram[m.Key()] + (if Truthy(card.Get(m)) then 1 else 0)
      invariant forall m: Metric :: k <= TrackedSlot(m) ==> r[m.Key()] == histogram[m.Key()]
    {
      var key := TrackedMetrics[k].Key();
      if Truthy(card.Get(TrackedMetrics[k])) {
        r := r[key := r[key] + 1];
      }
    }
  }

  /** The per-metric counting of `print_rankings_key_histogram`, one record
      after the other. */
  method TallyCards(cards: seq<Card>) returns (histogram: map<string, nat>)
    ensures histogram.Keys == HistogramKeys() - {"all"}
    ensures forall m: Metric :: histogram[m.Key()] == CountTruthy(cards, m)
  {
    histogram := EmptyHistogram();
    for i := 0 to |cards|
      invariant histogram.Keys == HistogramKeys() - {"all"}
      invariant forall m: Metric :: histogram[m.Key()] == CountTruthy(cards[..i], m)
    {
      CountTruthyExtend(cards, i);
      histogram := TallyCard(histogram, cards[i]);
    }
    assert cards[..|cards|] == cards;
  }

  /** The counting in `print_rankings_key_histogram`: per metric key, the
      number of records where the key is present and truthy, and under
      "all" the number of records. */
  method KeyHistogram(cards: seq<Card>) returns (histogram: map<string, nat>)
    ensures histogram.Keys == HistogramKeys()
    ensures histogram["all"] == |cards|
    ensures forall m: Metric :: histogram[m.Key()] == CountTruthy(cards, m) <= |cards|
  {
    MetricKeysDistinct();
    histogram := TallyCards(cards);
    histogram := histogram["all" := |cards|];
  }
}

=== FILE: text.dfy ===
/** The Python `str` operations the log parsers rely on, over `string`
    (a sequence of Unicode code points): `startswith`, `in`, `count`,
    `split`, `strip` and `replace(old, "")`. */
module Text {

  /** `s.startswith(prefix)`. */
  predicate StartsWith(s: string, prefix: string) {
    |prefix| <= |s| && s[..|prefix|] == prefix
  }

  /** `needle` occurs in `s` starting at index `i`. */
  predicate OccursAt(s: string, needle: string, i: int) {
    0 <= i && i + |needle| <= |s| && s[i..i + |needle|] == needle
  }

  /** `needle in s`: substring test (the empty string occurs everywhere). */
  predicate Contains(s: string, needle: string) {
    exists i | 0 <= i <= |s| - |needle| :: OccursAt(s, needle, i)
  }

  /** A string lacking one of the needle's characters does not contain it. */
  lemma AbsentCharNotContained(s: string, needle: string, k: nat)
    requires k < |needle| && needle[k] !in s
    ensures !Contains(s, needle)
  {
    forall i | 0 <= i <= |s| - |needle| ensures !OccursAt(s, needle, i) {
      assert s[i..i + |needle|][k] == s[i + k];
    }
  }

  /** `s.count(c)` for a one-character argument. */
  function CountChar(s: string, c: char): nat {
    if |s| == 0 then 0 else (if s[0] == c then 1 else 0) + CountChar(s[1..], c)
  }

  /** A character is counted zero times exactly when it does not occur. */
  lemma {:induction false} CountCharZero(s: string, c: char)
    ensures CountChar(s, c) == 0 <==> c !in s
    decreases |s|
  {
    if |s| > 0 {
      CountCharZero(s[1..], c);
      assert s == [s[0]] + s[1..];
    }
  }

  /** `sep.join(parts)`. */
  function Join(parts: seq<string>, sep: char): string
    requires |parts| > 0
  {
    if |parts| == 1 then parts[0] else parts[0] + [sep] + Join(parts[1..], sep)
  }

  /** `s.split(sep)` for a one-character separator: the pieces between
      consecutive separators, empty pieces included. */
  function Split(s: string, sep: char): (parts: seq<string>)
    ensures |parts| == CountChar(s, sep) + 1
    ensures forall i | 0 <= i < |parts| :: sep !in parts[i]
    ensures Join(parts, sep) == s
    decreases |s|
  {
    if |s| == 0 then [""]
    else
      var rest := Split(s[1..], sep);
      if s[0] == sep then
        assert s == [sep] + s[1..];
        [""] + rest
      else
        var parts := [[s[0]] + rest[0]] + rest[1..];
        assert parts[1..] == rest[1..];
        assert s == [s[0]] + s[1..];
        parts
  }

  lemma {:induction false} SplitSingle(s: string, sep: char)
    requires sep !in s
    ensures Split(s, sep) == [s]
    decreases |s|
  {
    if |s| > 0 {
      SplitSingle(s[1..], sep);
    }
  }

  lemma {:induction false} SplitPiece(piece: string, sep: char, tail: string)
    requires sep !in piece
    ensures Split(piece + [sep] + tail, sep) == [piece] + Split(tail, sep)
    decreases |piece|
  {
    var s := piece + [sep] + tail;
    if |piece| == 0 {
      assert s[1..] == tail;
    } else {
      assert s[1..] == piece[1..] + [sep] + tail;
      SplitPiece(piece[1..], sep, tail);
      assert [s[0]] + piece[1..] == piece;
    }
  }

  /** Splitting undoes joining when no piece contains the separator. */
  lemma {:induction false} SplitJoin(parts: seq<string>, sep: char)
    requires |parts| > 0
    requires forall i | 0 <= i < |parts| :: sep !in parts[i]
    ensures Split(Join(parts, sep), sep) == parts
    decreases |parts|
  {
    if |parts| == 1 {
      SplitSingle(parts[0], sep);
    } else {
      SplitJoin(parts[1..], sep);
      SplitPiece(parts[0], sep, Join(parts[1..], sep));
      assert parts == [parts[0]] + parts[1..];
    }
  }

  /** The characters for which Python's `str.isspace()` holds. */
  predicate IsSpace(c: char) {
    || c == ' ' || c == '\t' || c == '\n' || c == '\r'
    || c == '\U{000B}' || c == '\U{000C}'
    || ('\U{001C}' <= c <= '\U{001F}')
    || c == '\U{0085}' || c == '\U{00A0}' || c == '\U{1680}'
    || ('\U{2000}' <= c <= '\U{200A}')
    || c == '\U{2028}' || c == '\U{2029}' || c == '\U{202F}'
    || c == '\U{205F}' || c == '\U{3000}'
  }

  /** `s.lstrip()`: the suffix left after dropping leading whitespace. */
  function TrimStart(s: string): (r: string)
    ensures |r| <= |s| && r == s[|s| - |r|..]
    ensures forall i | 0 <= i < |s| - |r| :: IsSpace(s[i])
    ensures r == [] || !IsSpace(r[0])
    ensures s == [] || !IsSpace(s[0]) ==> r == s
    decreases |s|
  {
    if |s| > 0 && IsSpace(s[0]) then
      var r := TrimStart(s[1..]);
      assert forall i | 1 <= i < |s| - |r| :: s[i] == s[1..][i - 1];
      assert s[1..][|s| - 1 - |r|..] == s[|s| - |r|..];
      r
    else s
  }

  /** `s.rstrip()`: the prefix left after dropping trailing whitespace. */
  function TrimEnd(s: string): (r: string)
    ensures |r| <= |s| && r == s[..|r|]
    ensures forall i | |r| <= i < |s| :: IsSpace(s[i])
    ensures r == [] || !IsSpace(r[|r| - 1])
    ensures s == [] || !IsSpace(s[|s| - 1]) ==> r == s
    decreases |s|
  {
    if |s| > 0 && IsSpace(s[|s| - 1]) then
      var r := TrimEnd(s[..|s| - 1]);
      assert forall i | |r| <= i < |s| - 1 :: s[i] == s[..|s| - 1][i];
      assert s[..|s| - 1][..|r|] == s[..|r|];
      r
    else s
  }

  /** `s.strip()`: the slice of `s` left after dropping whitespace from both
      ends. */
  function Strip(s: string): (r: string)
    ensures exists a, b | 0 <= a <= b <= |s| ::
              && r == s[a..b]
              && (forall i | 0 <= i < a :: IsSpace(s[i]))
              && (forall i | b <= i < |s| :: IsSpace(s[i]))
    ensures r == [] || (!IsSpace(r[0]) && !IsSpace(r[|r| - 1]))
    ensures (s == [] || (!IsSpace(s[0]) && !IsSpace(s[|s| - 1]))) ==> r == s
  {
    TrimBothIsSlice(s);
    TrimEnd(TrimStart(s))
  }

  /** Trimming both ends keeps the slice between the leading and the
      trailing run of whitespace. */
  lemma TrimBothIsSlice(s: string)
    ensures var t := TrimStart(s);
            var a := |s| - |t|;
            var b := a + |TrimEnd(t)|;
            && 0 <= a <= b <= |s|
            && TrimEnd(t) == s[a..b]
            && (forall i | 0 <= i < a :: IsSpace(s[i]))
            && (forall i | b <= i < |s| :: IsSpace(s[i]))
  {
    var t := TrimStart(s);
    var a := |s| - |t|;
    SliceOfSuffix(s, a, |TrimEnd(t)|);
    SuffixTailAt(s, a, |TrimEnd(t)|);
  }

  /** A prefix of a suffix is a slice. */
  lemma SliceOfSuffix(s: string, a: nat, n: nat)
    requires a + n <= |s|
    ensures s[a..][..n] == s[a..a + n]
  {
  }

  /** The trailing whitespace `TrimEnd` drops from the suffix `s[a..]` lies
      at the end of `s`. */
  lemma SuffixTailAt(s: string, a: nat, n: nat)
    requires a <= |s| && n == |TrimEnd(s[a..])|
    ensures forall i | a + n <= i < |s| :: IsSpace(s[i])
  {
    var t := s[a..];
    forall i | a + n <= i < |s| ensures IsSpace(s[i]) {
      assert s[i] == t[i - a];
    }
  }

  /** `s.replace(pattern, "")`: occurrences are found left to right and do
      not overlap. */
  function RemoveAll(s: string, pattern: string): (r: string)
    requires |pattern| > 0
    ensures |r| <= |s|
    ensures |pattern| == 1 ==> pattern[0] !in r
    decreases |s|
  {
    if |s| == 0 then s
    else if StartsWith(s, pattern) then RemoveAll(s[|pattern|..], pattern)
    else [s[0]] + RemoveAll(s[1..], pattern)
  }

  /** Nothing is removed from a string in which the pattern cannot start. */
  lemma {:induction false} RemoveAllAbsent(s: string, pattern: string)
    requires |pattern| > 0
    requires pattern[0] !in s
    ensures RemoveAll(s, pattern) == s
    decreases |s|
  {
    if |s| > 0 {
      assert s[0] != pattern[0];
      RemoveAllAbsent(s[1..], pattern);
    }
  }

  /** Removing one character distributes over concatenation. */
  lemma {:induction false} RemoveCharConcat(a: string, b: string, c: char)
    ensures RemoveAll(a + b, [c]) == RemoveAll(a, [c]) + RemoveAll(b, [c])
    decreases |a|
  {
    if |a| > 0 {
      assert (a + b)[1..] == a[1..] + b;
      RemoveCharConcat(a[1..], b, c);
    } else {
      assert a + b == b;
    }
  }

  /** A pattern in front of a text in which it cannot start is removed
      once, leaving the text. */
  lemma RemoveLeadingPattern(pattern: string, t: string)
    requires |pattern| > 0
    requires pattern[0] !in t
    ensures RemoveAll(pattern + t, pattern) == t
  {
    var s := pattern + t;
    assert s[..|pattern|] == pattern;
    assert s[|pattern|..] == t;
    RemoveAllAbsent(t, pattern);
  }

  /** A character at the end of a text without it is removed, leaving
      the text. */
  lemma RemoveTrailingChar(t: string, c: char)
    requires c !in t
    ensures RemoveAll(t + [c], [c]) == t
  {
    RemoveCharConcat(t, [c], c);
    RemoveAllAbsent(t, [c]);
    assert [c][1..] == [];
  }
}

=== FILE: wrappers.dfy ===
/** Failure-aware result types shared by the whole model.
    `Option` stands for Python's `None`-or-value; `Result` for a value or the
    exception the source lets escape. */
module Wrappers {

  datatype Option<+T> = None | Some(value: T)

  datatype Result<+R, +E> = Success(value: R) | Failure(error: E)
}
